=== FILE: README.md ===
# Length-prefixed framing in testnio, modelled in Dafny

testnio is a throughput benchmark for sending one file over TCP from Java.
It has two senders and two receivers.

- The senders are `FileChannelTest.testByteBuffer` and
  `FileChannelTest.testByteArray`. Each sends the file as one frame:
  four little-endian bytes holding the file size, then the file. The
  file is read through a buffer of fixed capacity, and each buffer's
  filled part is written to the socket.
- The receivers are `ServerChannelMain` (NIO channels and `ByteBuffer`s)
  and `ServerSocketMain` (streams and `byte[]`). Each repeatedly reads a
  4-byte prefix, counts it, and then either copies or skips that many
  payload bytes.

This project models that framing logic as pure functions over byte
sequences. It also models the loops of the source as methods, and proves
that each method computes what its function states.

## Modules

- `Bytes`: bytes as the integers 0..255, Java's 32-bit `int`, bitwise OR
  on bytes, and the concatenation of chunks.
- `LengthPrefix`: the sender's encode (`(byte) (length >> 8k)`) and the
  receivers' decode `b0 | b1 << 8 | b2 << 16 | b3 << 32`. The decode is
  computed on four byte lanes of a Java `int`, with the shift distance
  masked to its low five bits as Java does. So `<< 32` is `<< 0`, and the
  top byte lands in bits 0-7. `Decode24` is the decode with `<< 24`.
- `Transport`: a byte stream with a read schedule.
  - A `Stream` is the bytes still to arrive, plus the sizes the next
    read calls are allowed to return (`grants`).
  - `Read` returns at most what is asked for, what is left and what the
    next grant allows. At end of stream it returns -1. When no grant is
    left the call never returns.
  - A grant of 0 lets a read return 0 although bytes were asked for and
    are available. A blocking `SocketChannel.read` or `InputStream.read`
    never does that, so such schedules add behaviours the program does
    not have; every safety property holds on them too. `Progressing(s, 1)`
    rules them out, and every completion property assumes it.
  - `Fill` is the loop `while (buf.hasRemaining() && src.read(buf) > 0)`
    and its array-offset twins. Every loop in the source that reads into
    a region is modelled by it.
- `Buffers`: the part of `java.nio.ByteBuffer` the code uses (`clear`,
  `limit`, `put`, `flip`). Also the buffer strategies: one shared buffer
  or array, or a fresh one per call, of a given capacity.
- `FrameReader`: the payload loop of both receivers (`Drain`), the prefix
  read (`ReadPrefix`), and what one connection reports (`Connection`). The
  loop is `transfer` in the channel receiver and the inline `remaining`
  loop in the stream receiver. Receivers come in two variants:
  - `AsWritten`: a single `read(b4)` that must return 4, and the `<< 32`
    decode.
  - `Corrected`: the prefix read is repeated until four bytes are in, and
    the decode uses `<< 24`.
- `ChannelServer`: `ServerChannelMain`'s connection loop and `transfer`,
  as methods over `ByteBuffer`s, checked against the function `Serve`.
- `SocketServer`: `ServerSocketMain`'s connection loop as the function
  `Serve`, plus the persist loop as methods over arrays.
  - The discard branch uses `skipNBytes`, which reads through the
    schedule like any other read: it ends with an `EOFException` at end
    of stream and blocks when no read is answered.
  - The persist branch uses a supplier. The supplier is missing when no
    strategy argument is given.
- `FrameWriter`: the two sender framers, as functions from the file's
  read schedule to the writes they issue.
- `EndToEnd`: frames written back to back and read by either receiver.
  This module also holds the split-prefix counterexample.

## Model

| member | source | states |
|---|---|---|
| LengthPrefix.Encode | src/test/java/test/FileChannelTest.java:166-169 | the four prefix bytes are the little-endian base-256 digits of the length taken modulo 2^32: each `(byte)` cast keeps the low 8 bits of the shifted length (the same bytes as lines 202-205) |
| LengthPrefix.Decode | src/main/java/test/ServerChannelMain.java:54-57 | the decoded length is `b0 OR b3` plus `b1 * 2^8` plus `b2 * 2^16`, so it always lies in [0, 2^24) |
| LengthPrefix.RoundTripIff | src/main/java/test/ServerChannelMain.java:54-57 | decoding the encoding of a length gives that length back if and only if 0 <= length < 2^24 |
| LengthPrefix.TopByteFolded | src/main/java/test/ServerSocketMain.java:51 | a 16 MiB file (2^24 bytes) is sent as the prefix [0, 0, 0, 1] and received as a length of 1 |
| LengthPrefix.Decode24 | src/main/java/test/ServerSocketMain.java:51 | the decode with `<< 24` is the base-256 value of the prefix, read as a two's-complement int |
| LengthPrefix.RoundTrip24 | src/main/java/test/ServerChannelMain.java:54-57 | the decode with `<< 24` gives every int length back from its encoding |
| LengthPrefix.EncodeDecode24 | src/test/java/test/FileChannelTest.java:202-205 | encoding gives every 4-byte prefix back from its `<< 24` decode, so prefixes and ints are in one-to-one correspondence |
| LengthPrefix.DecodeWithEncode | src/main/java/test/ServerSocketMain.java:51 | for either decode, a length survives the round trip exactly when it is faithful to that decode: below 2^24 and non-negative for `<< 32`, always for `<< 24` |
| Transport.Read | src/main/java/test/ServerSocketMain.java:60 | one read call returns -1 exactly when bytes were asked for at end of stream; otherwise it returns the number of bytes it delivered, at most the number asked for; it is positive when bytes are asked for, available and granted; and it never returns once the schedule is exhausted |
| Transport.Fill | src/main/java/test/ServerSocketMain.java:60-63 | a read-until-full-or-no-progress loop never delivers more than the region holds, uses up no more reads than the schedule has and at least one when the region is not empty, and returns at once, with nothing, for an empty region (the same loop is at ServerChannelMain.java:84 and FileChannelTest.java:175-177 and 207) |
| Transport.FillInOrder | src/main/java/test/ServerChannelMain.java:84 | a fill that returns delivers the next bytes of the stream in order, and leaves the rest of the stream after them |
| Transport.FillCompletes | src/main/java/test/ServerChannelMain.java:84 | when every read delivers at least one byte and the schedule outlasts the data, a fill returns `min(space, available)` bytes; the schedule left over still delivers at least one byte per read, and it still outlasts the data when the region was no larger than the data |
| FrameReader.Drain | src/main/java/test/ServerChannelMain.java:79 | with `length <= 0` no buffer is filled, nothing is written and nothing is consumed; with `length > 0` at least one chunk is handed on unless the first fill never returns |
| FrameReader.DrainInOrder | src/main/java/test/ServerChannelMain.java:79-88 | the sink sees a prefix of the stream, in order and never more than `length` bytes; when the loop ends, it has seen exactly `length` bytes and nothing of the next frame has been consumed |
| FrameReader.DrainChunkSizes | src/main/java/test/ServerChannelMain.java:82-85 | no chunk is longer than the buffer's capacity or the frame's `length`; that the chunks together never exceed `length`, so that `length` never goes negative, is stated by `DrainInOrder` |
| FrameReader.DrainAtEnd | src/main/java/test/ServerChannelMain.java:84-85 | a frame cut short by the end of the stream never completes: each fill reads nothing, `length` stays the same, and only empty chunks reach the sink |
| FrameReader.DrainCompletes | src/main/java/test/ServerSocketMain.java:55-66 | when every read delivers at least one byte and the schedule outlasts the data, the loop ends; the chunks concatenate to exactly the next `length` bytes of the stream, and the stream resumes right after them |
| FrameReader.ReadPrefix | src/main/java/test/ServerChannelMain.java:52 | as written, a prefix is read exactly when the first read is granted four bytes and four are available; the read blocks exactly when no read is answered |
| FrameReader.PrefixInOrder | src/main/java/test/ServerChannelMain.java:52-57 | a prefix is the next four bytes of the stream, decoded as the variant decodes, and the payload starts right after it |
| ChannelServer.FillBuffer | src/main/java/test/ServerChannelMain.java:84 | the `hasRemaining`/`read` loop on a buffer blocks exactly when `Fill` of the buffer's remaining space does; otherwise it leaves the stream where `Fill` does and advances the position by the bytes `Fill` delivers |
| ChannelServer.TakeChunk | src/main/java/test/ServerChannelMain.java:80-87 | a buffer cleared and capped at `length` yields exactly the bytes of one fill of `min(capacity, length)` |
| ChannelServer.Transfer | src/main/java/test/ServerChannelMain.java:77-89 | `transfer` returns exactly when `Drain` completes; the destination receives exactly `Drain`'s chunks whatever a shared buffer held before, and nothing when there is no destination |
| ChannelServer.ReadPrefixBuffer | src/main/java/test/ServerChannelMain.java:52-57 | `read(buf4)` on the cleared buffer, followed by the decode of `buf4.get(0..3)`, gives the as-written `ReadPrefix` |
| ChannelServer.Serve | src/main/java/test/ServerChannelMain.java:50-66 | a connection ends closed, blocked on a prefix read, or blocked inside a frame; it never aborts |
| ChannelServer.ServeCounts | src/main/java/test/ServerChannelMain.java:52-53 | `count` is the number of completed frames, plus one when the connection blocks inside a frame |
| ChannelServer.ServeRound | src/main/java/test/ServerChannelMain.java:52-65 | one pass of the frame loop agrees with `Serve` and leaves `buf4` cleared at position 0 with limit 4, so the next prefix lands in positions 0..3 |
| ChannelServer.ServeConnection | src/main/java/test/ServerChannelMain.java:50-66 | the frame loop of `main` agrees with the as-written `Serve` on the ending, on `count`, and, when a destination is configured, on the bytes written for each frame |
| SocketServer.ReadChunk | src/main/java/test/ServerSocketMain.java:59-63 | when the inner loop stops, `pos + remaining` is the request, and `b[0, pos)` holds exactly the bytes of one fill of the request |
| SocketServer.PersistFrame | src/main/java/test/ServerSocketMain.java:55-66 | the output file receives exactly `Drain`'s chunks, whatever a shared array held before, and the loop returns exactly when `Drain` completes |
| SocketServer.SkipNBytes | src/main/java/test/ServerSocketMain.java:69 | `skipNBytes(length)` returns only when at least `length` bytes remain, ends with an `EOFException` only when fewer remain, and otherwise (a silent peer) blocks; it never uses more reads than the schedule has |
| SocketServer.SkipInOrder | src/main/java/test/ServerSocketMain.java:69 | a skip that returns has passed over exactly the next `length` bytes and leaves the stream right after them |
| SocketServer.SkipCompletes | src/main/java/test/ServerSocketMain.java:69 | when every read delivers at least one byte and the schedule outlasts the data, a skip returns exactly when `length` bytes remain and ends with an `EOFException` exactly when they do not; it never blocks, and the schedule left over has the same properties |
| SocketServer.Consume | src/main/java/test/ServerSocketMain.java:53-70 | a frame's payload branch breaks the connection with an `EOFException` only when skipping and fewer than `length` bytes remain, with a null dereference exactly when persisting a non-empty payload without a supplier (an empty payload never enters the loop of lines 55-56), and by blocking whenever persisting through a supplier breaks; when it consumes the payload, it leaves a stream whose schedule is no longer |
| SocketServer.Serve | src/main/java/test/ServerSocketMain.java:49-71 | a connection ends with an `EOFException` only when it skips payloads, and with a null dereference only when it persists without a strategy argument, where the supplier is `null` (line 40) |
| SocketServer.ServeCounts | src/main/java/test/ServerSocketMain.java:50-52 | `count` is the number of completed frames, plus one when the connection breaks inside a frame |
| FrameWriter.BufferWriter | src/test/java/test/FileChannelTest.java:199-214 | the do-while loop issues at least one write whenever the send completes |
| FrameWriter.SendBuffered | src/test/java/test/FileChannelTest.java:191-207 | on every file read schedule, a send that completes starts its first write with the encoded file size |
| FrameWriter.BufferWriterFrame | src/test/java/test/FileChannelTest.java:199-214 | when the file reads make progress, the writes concatenate to the prefix followed by the file; every write but the last is a full buffer and the last is not; the first write starts with the prefix |
| FrameWriter.ChunkCount | src/test/java/test/FileChannelTest.java:214 | a run of writes that are full until the last one has `total / capacity + 1` writes, including a final empty write when the total is a multiple of the capacity |
| FrameWriter.SendBufferedFrame | src/test/java/test/FileChannelTest.java:217 | the ByteBuffer framer writes `size + 4` bytes in all, as the test asserts: the encoded size, then the file, in `(size + 4) / capacity + 1` writes |
| FrameWriter.ArrayWriter | src/test/java/test/FileChannelTest.java:163-183 | the do-while loop issues at least one write whenever the send completes |
| FrameWriter.SendArray | src/test/java/test/FileChannelTest.java:157-173 | on every file read schedule, a send that completes starts its first write with the encoded file size when the prefix is stored (always once corrected, for a non-empty file as written); an empty file as written is sent as the single write `[]` |
| FrameWriter.ArrayFirstWrite | src/test/java/test/FileChannelTest.java:163-180 | when the file reads make progress and the prefix is stored, the first write `b[0, b.length - length)` is the encoded size followed by the first `capacity - 4` bytes of the file, or the whole file when it is shorter |
| FrameWriter.ArrayTailAgrees | src/test/java/test/FileChannelTest.java:171-183 | after the first chunk, the byte-array framer and the ByteBuffer framer issue the same writes on every file read schedule |
| FrameWriter.SendersAgree | src/test/java/test/FileChannelTest.java:157-189 | the byte-array framer and the ByteBuffer framer issue identical writes for every non-empty file, and for every file once corrected |
| FrameWriter.EmptyFileUnframed | src/test/java/test/FileChannelTest.java:165-173 | for an empty file the byte-array framer as written sends a single empty write and no prefix; the corrected one sends the prefix [0, 0, 0, 0] |
| FrameWriter.EmptyFileAsTail | src/test/java/test/FileChannelTest.java:171-173 | for an empty file the byte-array framer as written behaves like a framer whose prefix was already sent |
| Buffers.Acquire | src/main/java/test/ServerChannelMain.java:25-32 | `supplier.get()` yields a buffer of the strategy's capacity: the shared one exactly as it was left, or a fresh one that is all zeros with position 0 and limit at capacity; that a shared buffer's leftover bytes never reach the output is stated by `ChannelServer.Transfer` |
| Buffers.AcquireArray | src/main/java/test/ServerSocketMain.java:26-29 | `supplier.get()` yields an array of the strategy's length: the shared one exactly as it was left, or a fresh one that is all zeros; that a shared array's leftover bytes never reach the file is stated by `SocketServer.PersistFrame` |
| EndToEnd.FrameArrives | src/main/java/test/ServerSocketMain.java:50-51 | on a schedule whose reads deliver at least four bytes as written (one corrected) and outnumber the bytes, a receiver reading a frame whose size its decode reads faithfully gets that size, and the stream resumes at the payload |
| EndToEnd.ChannelDelivers | src/main/java/test/ServerChannelMain.java:50-66 | frames written back to back reach the channel receiver, on any buffer capacity and any schedule whose reads deliver enough: it counts each frame, hands on every payload in order, and closes; payloads of any size with the corrected decode, below 16 MiB (2^24 bytes) as written (see the first row of Findings) |
| EndToEnd.SocketDelivers | src/main/java/test/ServerSocketMain.java:50-71 | the same for the stream receiver, whether it skips or persists through a supplier, with the same size bound: any size corrected, below 16 MiB as written |
| EndToEnd.PersistWithoutSupplier | src/main/java/test/ServerSocketMain.java:53-56 | on a stream whose first frame has a non-empty payload, and on a schedule whose reads deliver at least four bytes as written (one corrected) and outnumber the bytes, persisting without a strategy argument counts that frame and then dereferences the missing supplier: the connection crashes with a count of 1 |
| EndToEnd.SentFileReceived | src/test/java/test/FileChannelTest.java:191-221 | one file sent by the ByteBuffer framer is received by the channel receiver as exactly one frame, the file itself, on any pair of buffer capacities, for a file of any size below 2^31 bytes with the corrected decode and below 16 MiB as written |
| EndToEnd.SplitFrame | src/test/java/test/FileChannelTest.java:202-205 | the one-byte file `[7]` goes on the wire as [1, 0, 0, 0, 7] |
| EndToEnd.SplitPrefixLost | src/main/java/test/ServerChannelMain.java:52 | when the first read returns only two prefix bytes, both receivers as written report no frame and close, the stream receiver whether it skips or persists without a supplier |
| EndToEnd.SplitPrefixKeptByChannel | src/main/java/test/ServerChannelMain.java:50-66 | on the same stream, the corrected channel receiver reads the whole prefix and delivers the frame `[7]` |
| EndToEnd.SplitPrefixKeptBySocket | src/main/java/test/ServerSocketMain.java:50-71 | on the same stream, the corrected stream receiver does the same |
| EndToEnd.SilentPeerBlocksSkip | src/main/java/test/ServerSocketMain.java:69 | a frame announcing five bytes of which one arrives, from a peer that stays connected: the skipping receiver counts the frame and blocks inside it |
| EndToEnd.ClosedPeerAbortsSkip | src/main/java/test/ServerSocketMain.java:69-73 | the same frame from a peer that then closes: the skip ends with an `EOFException` and the connection is aborted after counting the frame |
| EndToEnd.ClosedPeerStallsChannel | src/main/java/test/ServerChannelMain.java:79-88 | the same frame at the channel receiver: `transfer` never finishes the frame; a read of -1 is followed by another read, and the connection ends inside the frame once no read is answered, so a -1 spin and a silent peer are both reported as blocked inside the frame |

## Left out

- Sockets, `accept`, socket options, system properties, and the
  `Received %d objects` output. These are configuration and I/O. A
  connection is modelled by the bytes it carries and the sizes its reads
  return.
- Timing (`nanoTime`, `LongSummaryStatistics`), the float report in
  `afterAll`, and JUnit parameterisation. These are measurement and the
  test harness.
- Heap versus direct buffers, and the sizes 8096 and 64768. Only the
  capacity and whether one buffer is shared are modelled, because memory
  kind does not change any byte.
- Exceptions, except the two that decide a connection's outcome: the
  `EOFException` of `skipNBytes` (`Aborted`) and the null supplier
  (`Crashed`).
- Files of 2^31 bytes or more. `SizeFits` requires the size to fit an
  `int`. The `(int)` cast of a larger `Files.size` is not modelled.
- `BufferedInputStream` and `NO_BUFSTREAM`. Each modelled read is one
  call on the stream, whichever class serves it.
- Each send loop repeats the file 100 or 1000 times per connection.
  `SentFileReceived` covers one file. `ChannelDelivers` and
  `SocketDelivers` cover any sequence of frames back to back.
- ChannelServer.Transfer: the destination is an append-only sink.
  `Files.newByteChannel(path)` without options opens the file read-only,
  so a real `dst.write` would throw; that library behaviour is not
  modelled.
- SocketServer.PersistFrame: `out.write` and the reopening of the output
  file for every frame are modelled as handing the chunks of that frame
  to the file. `SocketServer.Serve` reports the content of each frame.
- SocketServer.SkipNBytes: each step of the skip is modelled as one
  read of up to the bytes still to be skipped. A `BufferedInputStream`
  may skip bytes already in its buffer without a read call; the bytes
  passed over and the way the skip ends are the same.
- SocketServer.SkipCompletes: holds only on read schedules where every
  read delivers at least one byte and reads outnumber the bytes.
- FrameWriter.BufferWriter: the running total `write` is modelled only
  as whether it is still 0, and every `out.write` is taken to write the
  whole buffer. `SendBufferedFrame` states the final total.
- FrameReader.DrainCompletes: holds only on read schedules where every
  read delivers at least one byte and reads outnumber the bytes. On
  other schedules `Drain` still says what happens (see `DrainAtEnd`),
  but completion is not promised.
- FrameWriter.BufferWriterFrame: holds only on such schedules of the
  file's reads.
- FrameWriter.SendBufferedFrame: holds only on such schedules of the
  file's reads.
- EndToEnd.ChannelDelivers: holds only on such schedules, with reads of
  at least four bytes for the as-written prefix read. `SplitPrefixLost`
  shows what happens otherwise. As written it also holds only for
  payloads below 2^24 bytes, because the `<< 32` decode folds the top
  byte (`TopByteFolded`); with the corrected decode any size is covered.
- EndToEnd.FrameArrives: holds only on schedules whose reads deliver at
  least four bytes as written (one corrected) and outnumber the bytes.
  On the split-prefix stream of `SplitPrefixLost` the as-written prefix
  read finds no prefix.
- EndToEnd.PersistWithoutSupplier: holds only on the same schedules. On
  the split-prefix stream of `SplitPrefixLost` the as-written receiver
  closes with a count of 0 before it reaches the supplier.
- EndToEnd.SocketDelivers: holds only on the same schedules, and as
  written only for payloads below 2^24 bytes.
- EndToEnd.SentFileReceived: holds only on the same schedules, on both
  the sending and the receiving side, and as written only for files
  below 2^24 bytes.
- The shared buffer's contents after a transfer. Only its capacity is
  tracked, because no output depends on the rest.

Behaviours of the code worth noting:

- The ByteBuffer framer issues `(size + 4) / capacity + 1` writes. The
  last write is empty when `size + 4` is a multiple of the capacity.
- An empty file is sent with a 4-byte prefix only by the ByteBuffer
  framer. The byte-array framer as written sends no prefix.
- A peer that closes in the middle of a payload leaves the channel
  receiver, and the stream receiver's persist branch, looping on reads
  that return -1 (`DrainAtEnd`, `ClosedPeerStallsChannel`); neither
  aborts. The stream receiver's discard branch does abort: `skipNBytes`
  throws an `EOFException`, which ends the connection
  (`ClosedPeerAbortsSkip`).

## Findings

| source | as written | input that shows it | evidently intended | confidence | as-written member | corrected member |
|---|---|---|---|---|---|---|
| src/main/java/test/ServerChannelMain.java:57 | the top prefix byte is shifted by 32, which Java reduces to a shift by 0, so it is OR-ed into bits 0-7 | a file of 2^24 bytes: prefix [0, 0, 0, 1] decodes to 1 (the same holds at src/main/java/test/ServerSocketMain.java:51) | `<< 24`, which undoes the sender's `length >> 24` | not executed; high | LengthPrefix.TopByteFolded | LengthPrefix.RoundTrip24 |
| src/test/java/test/FileChannelTest.java:165-173 | the byte-array framer puts the prefix in the first chunk only when `length != 0`; an empty file is sent as one empty write with no prefix | an empty file: the writes are `[[]]`, and the receiver counts no frame for it | send the prefix [0, 0, 0, 0] in the first chunk, as the ByteBuffer framer does | not executed; high | FrameWriter.EmptyFileUnframed | FrameWriter.SendersAgree |
| src/main/java/test/ServerChannelMain.java:52 | one `read(buf4)` must return 4, or the connection's frame loop ends (the same holds at src/main/java/test/ServerSocketMain.java:50) | the stream [1, 0, 0, 0, 7] whose first read returns 2 bytes: no frame is counted | read until the four prefix bytes are in | not executed; medium | EndToEnd.SplitPrefixLost | EndToEnd.SplitPrefixKeptByChannel |

=== FILE: buffers.dfy ===
/** Buffers and the strategies that supply them.

    A strategy hands out a buffer of fixed capacity on every call: either
    one process-wide buffer that keeps whatever an earlier fill left in it
    (`SHARE_…`), or a fresh zero-filled one (`NEW_…`).  Heap and direct
    memory present the same interface and are not distinguished. */
module Buffers {
  import opened Bytes

  datatype Sharing = Shared | PerCall

  datatype Strategy = Strategy(sharing: Sharing, capacity: nat)

  function Zeros(n: nat): (z: seq<Byte>)
    ensures |z| == n
    ensures forall i :: 0 <= i < n ==> z[i] == 0
  {
    seq(n, i => 0)
  }

  /** A `java.nio.ByteBuffer`: its backing bytes, position and limit; the
      capacity is the length of `content`. */
  datatype ByteBuffer = ByteBuffer(content: seq<Byte>, position: nat, limit: nat)
  {
    predicate Valid()
    {
      position <= limit <= |content|
    }

    function Capacity(): nat
    {
      |content|
    }

    function Remaining(): nat
      requires Valid()
    {
      limit - position
    }

    /** `clear()`: position 0, limit at capacity; the bytes stay as they are. */
    function Clear(): (b: ByteBuffer)
      ensures b.Valid() && b.position == 0 && b.limit == b.Capacity() && b.content == content
    {
      ByteBuffer(content, 0, |content|)
    }

    /** `limit(n)`. */
    function WithLimit(n: nat): (b: ByteBuffer)
      requires Valid() && position <= n <= |content|
      ensures b.Valid() && b.limit == n && b.position == position && b.content == content
    {
      ByteBuffer(content, position, n)
    }

    /** Relative bulk put: `bytes` land at the position, which advances past
        them; nothing else in the buffer changes. */
    function Put(bytes: seq<Byte>): (b: ByteBuffer)
      requires Valid() && |bytes| <= limit - position
      ensures b.Valid() && b.limit == limit && b.position == position + |bytes|
      ensures |b.content| == |content|
      ensures b.content[..position] == content[..position]
      ensures b.content[position..b.position] == bytes
      ensures b.content[b.position..] == content[b.position..]
    {
      ByteBuffer(content[..position] + bytes + content[position + |bytes|..], position + |bytes|, limit)
    }

    /** A put extends the filled part by exactly the bytes put. */
    lemma PutExtends(bytes: seq<Byte>, base: seq<Byte>, got: seq<Byte>)
      requires Valid() && |bytes| <= limit - position
      requires content[..position] == base + got
      ensures Put(bytes).content[..Put(bytes).position] == base + (got + bytes)
    {
      var b := Put(bytes);
      assert b.content[..b.position] == b.content[..position] + b.content[position..b.position];
      ConcatAssoc(base, got, bytes);
    }

    /** `flip()`: what was filled becomes what is to be drained. */
    function Flip(): (b: ByteBuffer)
      requires Valid()
      ensures b.Valid() && b.position == 0 && b.limit == position && b.content == content
    {
      ByteBuffer(content, 0, position)
    }

    /** The bytes a channel `write(buf)` sends: those between position and limit. */
    function Pending(): seq<Byte>
      requires Valid()
    {
      content[position..limit]
    }
  }

  /** `supplier.get()`: the shared buffer as the last user left it, or a
      new zero-filled buffer, in either case with the strategy's capacity. */
  function Acquire(strategy: Strategy, shared: ByteBuffer): (b: ByteBuffer)
    requires |shared.content| == strategy.capacity
    ensures b.Capacity() == strategy.capacity
    ensures strategy.sharing.Shared? ==> b == shared
    ensures strategy.sharing.PerCall? ==>
      && b.position == 0 && b.limit == strategy.capacity
      && forall i :: 0 <= i < |b.content| ==> b.content[i] == 0
  {
    match strategy.sharing
    case Shared => shared
    case PerCall => ByteBuffer(Zeros(strategy.capacity), 0, strategy.capacity)
  }

  /** `supplier.get()` for the socket server's `byte[]` strategies. */
  function AcquireArray(strategy: Strategy, shared: seq<Byte>): (b: seq<Byte>)
    requires |shared| == strategy.capacity
    ensures |b| == strategy.capacity
    ensures strategy.sharing.Shared? ==> b == shared
    ensures strategy.sharing.PerCall? ==> forall i :: 0 <= i < |b| ==> b[i] == 0
  {
    match strategy.sharing
    case Shared => shared
    case PerCall => Zeros(strategy.capacity)
  }
}

=== FILE: bytes.dfy ===
/** Primitive types shared by the framing model: wire bytes, Java `int`
    values, bitwise OR on bytes, and byte-sequence helpers. */
module Bytes {

  /** One byte on the wire, as its unsigned value (what Java's `b & 255` yields). */
  type Byte = x: int | 0 <= x < 0x100

  /** A Java `int`: a signed 32-bit two's-complement value. */
  type Int32 = x: int | -0x8000_0000 <= x < 0x8000_0000

  const TWO_24: int := 0x100_0000
  const TWO_31: int := 0x8000_0000
  const TWO_32: int := 0x1_0000_0000

  function Min(a: int, b: int): (m: int)
    ensures m <= a && m <= b
    ensures m == a || m == b
  {
    if a < b then a else b
  }

  /** Bitwise OR of two non-negative integers, one bit at a time from the
      least significant end. */
  function BitOr(a: nat, b: nat): nat
    decreases a + b
  {
    if a == 0 then b
    else if b == 0 then a
    else 2 * BitOr(a / 2, b / 2) + (if a % 2 == 1 || b % 2 == 1 then 1 else 0)
  }

  /** OR of two bytes is a byte, and sets every bit either operand sets. */
  function ByteOr(a: Byte, b: Byte): (r: Byte)
    ensures a <= r && b <= r
    ensures b == 0 ==> r == a
    ensures a == 0 ==> r == b
  {
    BitOrBounds(a, b, 8);
    BitOr(a, b)
  }

  function Pow2(k: nat): (p: nat)
    ensures p >= 1
  {
    if k == 0 then 1 else 2 * Pow2(k - 1)
  }

  lemma {:induction false} BitOrBounds(a: nat, b: nat, k: nat)
    requires a < Pow2(k) && b < Pow2(k)
    ensures a <= BitOr(a, b) && b <= BitOr(a, b) < Pow2(k)
    decreases a + b
  {
    if a != 0 && b != 0 {
      assert k > 0;
      BitOrBounds(a / 2, b / 2, k - 1);
    }
  }

  /** Concatenation of a sequence of chunks, in order. */
  function Flatten(chunks: seq<seq<Byte>>): seq<Byte>
  {
    if |chunks| == 0 then [] else chunks[0] + Flatten(chunks[1..])
  }

  lemma ConcatAssoc(a: seq<Byte>, b: seq<Byte>, c: seq<Byte>)
    ensures a + (b + c) == (a + b) + c
  {
  }

  lemma Split(a: seq<Byte>, b: seq<Byte>)
    ensures (a + b)[..|a|] == a && (a + b)[|a|..] == b
  {
  }

  lemma FlattenCons(c: seq<Byte>, more: seq<seq<Byte>>)
    ensures Flatten([c] + more) == c + Flatten(more)
  {
    assert ([c] + more)[1..] == more;
  }
}

=== FILE: channel_server.dfy ===
/** The NIO receiver (`ServerChannelMain`): per connection, read a 4-byte
    prefix into a cleared buffer, count it, `transfer` the payload through
    buffers from the configured strategy, and repeat until a prefix read
    returns anything but 4. */
module ChannelServer {
  import opened Bytes
  import opened LengthPrefix
  import opened Transport
  import opened Buffers
  import opened FrameReader

  /** `while (buf.hasRemaining() && src.read(buf) > 0);` — the bytes each read
      delivers land at the buffer's position; nothing before the starting
      position and nothing past the new position is touched. */
  method FillBuffer(buf: ByteBuffer, s: Stream) returns (filled: ByteBuffer, rest: Stream, stuck: bool)
    requires buf.Valid()
    ensures stuck <==> Fill(s, buf.Remaining()).Stuck?
    ensures |filled.content| == |buf.content|
    ensures !stuck ==>
      var f := Fill(s, buf.Remaining());
      && rest == f.rest
      && filled.Valid() && filled.limit == buf.limit && |filled.content| == |buf.content|
      && filled.position == buf.position + |f.got|
      && filled.content[..filled.position] == buf.content[..buf.position] + f.got
  {
    filled, rest, stuck := buf, s, false;
    var got: seq<Byte> := [];
    var reading := true;
    ghost var total := Fill(s, buf.Remaining());
    ExtendNone(total);
    while reading && filled.position < filled.limit
      invariant filled.Valid() && filled.limit == buf.limit && |filled.content| == |buf.content|
      invariant filled.position == buf.position + |got|
      invariant filled.content[..filled.position] == buf.content[..buf.position] + got
      invariant reading ==> total == Extend(got, Fill(rest, filled.Remaining()))
      invariant !reading ==> total == Filled(got, rest)
      decreases |rest.grants|
    {
      match Read(rest, filled.Remaining())
      case Blocked =>
        FillHalts(total, got, rest, filled.Remaining());
        stuck := true;
        return;
      case Answered(n, bytes, rest') =>
        if n <= 0 {
          FillStops(total, got, rest, filled.Remaining(), n, bytes, rest');
          reading := false;
        } else {
          ghost var space := filled.Remaining();
          filled.PutExtends(bytes, buf.content[..buf.position], got);
          filled := filled.Put(bytes);
          FillAdvance(total, got, rest, space, n, bytes, rest', filled.Remaining());
          got := got + bytes;
        }
        rest := rest';
    }
    if reading {
      FillFull(total, got, rest);
    }
  }

  /** `transfer(src, length, dst, supplier)`: while `length > 0`, take a
      buffer, clear it, cap it at `length`, fill it, subtract its position,
      flip it and write it to the destination when there is one.  The
      destination receives exactly the chunks of `Drain`, whatever bytes a
      shared buffer held before. */
  method Transfer(src: Stream, length: Int32, strategy: Strategy, shared: ByteBuffer, persist: bool)
    returns (completed: bool, rest: Stream, written: seq<seq<Byte>>, shared': ByteBuffer)
    requires strategy.capacity > 0 && |shared.content| == strategy.capacity
    ensures completed <==> Drain(src, length, strategy.capacity).Drained?
    ensures completed ==> rest == Drain(src, length, strategy.capacity).rest
    ensures written == if persist then Drain(src, length, strategy.capacity).chunks else []
    ensures |shared'.content| == strategy.capacity
  {
    var len: int := length;
    rest, shared', written := src, shared, [];
    var chunks: seq<seq<Byte>> := [];
    ghost var total := Drain(src, length, strategy.capacity);
    PrependNone(total);
    while len > 0
      invariant |shared'.content| == strategy.capacity
      invariant total == Prepend(chunks, Drain(rest, len, strategy.capacity))
      invariant written == if persist then chunks else []
      decreases |rest.grants|
    {
      var stuck, chunk, rest', buf := TakeChunk(strategy, shared', len, rest, persist);
      if stuck {
        DrainHalt(total, chunks, rest, len, strategy.capacity);
        completed := false;
        return;
      }
      ghost var before, len0, chunks0 := rest, len, chunks;
      chunks := chunks + [chunk];
      if persist {
        written := written + [chunk];
      }
      len := len - |chunk|;
      rest := rest';
      DrainAdvance(total, chunks0, before, len0, strategy.capacity, chunk, rest, chunks, len);
      if strategy.sharing.Shared? {
        shared' := buf;
      }
    }
    DrainDone(total, chunks, rest, len, strategy.capacity);
    completed := true;
  }

  /** One pass of the `transfer` loop: take a buffer, clear it, cap it at
      `length`, fill it, flip it, and write its pending bytes when there is a
      destination.  The chunk is exactly what the fill delivered. */
  method TakeChunk(strategy: Strategy, shared: ByteBuffer, length: int, s: Stream, persist: bool)
    returns (stuck: bool, chunk: seq<Byte>, rest: Stream, buf: ByteBuffer)
    requires strategy.capacity > 0 && |shared.content| == strategy.capacity && length > 0
    ensures stuck <==> Fill(s, Min(strategy.capacity, length)).Stuck?
    ensures !stuck ==> Fill(s, Min(strategy.capacity, length)) == Filled(chunk, rest)
    ensures |buf.content| == strategy.capacity
  {
    chunk := [];
    buf := Acquire(strategy, shared).Clear();
    if length < buf.Capacity() {
      buf := buf.WithLimit(length);
    }
    assert buf.Remaining() == Min(strategy.capacity, length);
    buf, rest, stuck := FillBuffer(buf, s);
    if stuck {
      return;
    }
    buf := buf.Flip();
    chunk := buf.Pending();
    if persist {
      buf := buf.(position := buf.limit);
    }
  }

  /** The whole of one connection: a prefix is decoded from a cleared buffer,
      counted, and its payload drained; the loop ends when a prefix read
      returns anything but a full prefix, or a read never returns.  `frames`
      are the payloads of the completed frames, in order. */
  function Serve(s: Stream, variant: Variant, capacity: nat): (c: Connection)
    requires capacity > 0
    ensures c.ending in {Closed, Hangs, HangsInFrame}
    decreases |s.grants|
  {
    match ReadPrefix(s, variant)
    case PrefixBlocked => Connection(Hangs, 0, [])
    case NoPrefix => Connection(Closed, 0, [])
    case Prefix(length, rest) =>
      match Drain(rest, length, capacity)
      case DrainStuck(_) => Connection(HangsInFrame, 1, [])
      case Drained(chunks, rest') =>
        var c := Serve(rest', variant, capacity);
        Connection(c.ending, c.count + 1, [Flatten(chunks)] + c.frames)
  }

  /** `count` is the number of completed frames, plus the one being read
      when a payload read never returns. */
  lemma {:induction false} ServeCounts(s: Stream, variant: Variant, capacity: nat)
    requires capacity > 0
    ensures Serve(s, variant, capacity).count
      == |Serve(s, variant, capacity).frames| + (if Serve(s, variant, capacity).ending == HangsInFrame then 1 else 0)
    decreases |s.grants|
  {
    match ReadPrefix(s, variant)
    case PrefixBlocked =>
    case NoPrefix =>
    case Prefix(length, rest) =>
      match Drain(rest, length, capacity)
      case DrainStuck(_) =>
      case Drained(_, rest') =>
        ServeCounts(rest', variant, capacity);
  }

  /** `Serve` one prefix at a time: a prefix read that never returns ... */
  lemma ServeHangs(s: Stream, variant: Variant, capacity: nat)
    requires capacity > 0 && ReadPrefix(s, variant).PrefixBlocked?
    ensures Serve(s, variant, capacity) == Connection(Hangs, 0, [])
  {
  }

  /** ... one that returns anything but a full prefix ... */
  lemma ServeCloses(s: Stream, variant: Variant, capacity: nat)
    requires capacity > 0 && ReadPrefix(s, variant).NoPrefix?
    ensures Serve(s, variant, capacity) == Connection(Closed, 0, [])
  {
  }

  /** ... a payload read that never returns ... */
  lemma ServeHangsInFrame(s: Stream, variant: Variant, capacity: nat, length: Int32, rest: Stream)
    requires capacity > 0 && ReadPrefix(s, variant) == Prefix(length, rest)
    requires Drain(rest, length, capacity).DrainStuck?
    ensures Serve(s, variant, capacity) == Connection(HangsInFrame, 1, [])
  {
  }

  /** ... and a completed frame, after which the loop starts over. */
  lemma ServeFrame(s: Stream, variant: Variant, capacity: nat, length: Int32, rest: Stream,
                   chunks: seq<seq<Byte>>, rest': Stream)
    requires capacity > 0 && ReadPrefix(s, variant) == Prefix(length, rest)
    requires Drain(rest, length, capacity) == Drained(chunks, rest')
    ensures Serve(s, variant, capacity) == After([Flatten(chunks)], Serve(rest', variant, capacity))
  {
  }

  /** The frame loop of `main` for one accepted connection, as written:
      `buf4` is cleared before the first prefix and after every frame, so
      every prefix read starts at position 0 and the decode sees exactly
      the four bytes that read delivered.  It agrees with `Serve` on the
      ending, the count and, when a destination is configured, the bytes
      written for each frame. */
  method ServeConnection(s: Stream, buf4: ByteBuffer, strategy: Strategy, shared: ByteBuffer, persist: bool)
    returns (ending: Ending, count: nat, files: seq<seq<Byte>>, shared': ByteBuffer)
    requires |buf4.content| == PREFIX_SIZE
    requires strategy.capacity > 0 && |shared.content| == strategy.capacity
    ensures ending == Serve(s, AsWritten, strategy.capacity).ending
    ensures count == Serve(s, AsWritten, strategy.capacity).count
    ensures files == if persist then Serve(s, AsWritten, strategy.capacity).frames else []
  {
    var prefix := buf4.Clear();
    var rest := s;
    count, files, shared' := 0, [], shared;
    ghost var frames: seq<seq<Byte>> := [];
    ghost var total := Serve(s, AsWritten, strategy.capacity);
    AfterNone(total);
    while true
      invariant prefix.Valid() && prefix.position == 0 && prefix.limit == PREFIX_SIZE && |prefix.content| == PREFIX_SIZE
      invariant |shared'.content| == strategy.capacity
      invariant total == After(frames, Serve(rest, AsWritten, strategy.capacity))
      invariant count == |frames|
      invariant files == if persist then frames else []
      decreases |rest.grants|
    {
      var round;
      ghost var frame;
      round, prefix, shared', frame := ServeRound(prefix, rest, strategy, shared', persist);
      match round
      case Ended(e, counted) =>
        if counted {
          count := count + 1;
        }
        assert frames + [] == frames;
        ending := e;
        return;
      case Framed(file, rest') =>
        count := count + 1;
        AfterAfter(frames, [frame], Serve(rest', AsWritten, strategy.capacity));
        frames := frames + [frame];
        if persist {
          files := files + [file];
        }
        rest := rest';
    }
  }

  /** How one pass of the frame loop ends: the loop is left, after counting
      a prefix or not, or a frame went through and the loop goes on. */
  datatype Round = Ended(ending: Ending, counted: bool) | Framed(file: seq<Byte>, rest: Stream)

  /** One pass of the frame loop: read a prefix into `buf4`, count it,
      `transfer` its payload, clear `buf4`.  `frame` is the payload that
      went through, which is what the destination received. */
  method ServeRound(buf4: ByteBuffer, s: Stream, strategy: Strategy, shared: ByteBuffer, persist: bool)
    returns (round: Round, buf4': ByteBuffer, shared': ByteBuffer, ghost frame: seq<Byte>)
    requires buf4.Valid() && buf4.position == 0 && buf4.limit == PREFIX_SIZE && |buf4.content| == PREFIX_SIZE
    requires strategy.capacity > 0 && |shared.content| == strategy.capacity
    ensures buf4'.Valid() && buf4'.position == 0 && buf4'.limit == PREFIX_SIZE && |buf4'.content| == PREFIX_SIZE
    ensures |shared'.content| == strategy.capacity
    ensures round.Ended? ==>
      Serve(s, AsWritten, strategy.capacity) == Connection(round.ending, if round.counted then 1 else 0, [])
    ensures round.Framed? ==>
      && Serve(s, AsWritten, strategy.capacity) == After([frame], Serve(round.rest, AsWritten, strategy.capacity))
      && |round.rest.grants| < |s.grants|
    ensures round.Framed? && persist ==> round.file == frame
  {
    var reply;
    reply, buf4' := ReadPrefixBuffer(buf4, s);
    buf4' := buf4'.Clear();
    shared' := shared;
    frame := [];
    match reply
    case PrefixBlocked =>
      ServeHangs(s, AsWritten, strategy.capacity);
      round := Ended(Hangs, false);
    case NoPrefix =>
      ServeCloses(s, AsWritten, strategy.capacity);
      round := Ended(Closed, false);
    case Prefix(length, rest) =>
      var completed, rest', written;
      completed, rest', written, shared' := Transfer(rest, length, strategy, shared, persist);
      ghost var d := Drain(rest, length, strategy.capacity);
      if !completed {
        ServeHangsInFrame(s, AsWritten, strategy.capacity, length, rest);
        round := Ended(HangsInFrame, true);
      } else {
        ServeFrame(s, AsWritten, strategy.capacity, length, rest, d.chunks, rest');
        frame := Flatten(d.chunks);
        round := Framed(Flatten(written), rest');
      }
  }

  /** `src.read(buf4)` into the cleared 4-byte buffer, and the decode of its
      bytes when that read returned 4. */
  method ReadPrefixBuffer(buf4: ByteBuffer, s: Stream) returns (reply: PrefixReply, filled: ByteBuffer)
    requires buf4.Valid() && buf4.position == 0 && buf4.limit == PREFIX_SIZE && |buf4.content| == PREFIX_SIZE
    ensures reply == ReadPrefix(s, AsWritten)
    ensures |filled.content| == PREFIX_SIZE
  {
    filled := buf4;
    match Read(s, buf4.Remaining())
    case Blocked =>
      reply := PrefixBlocked;
    case Answered(n, got, rest) =>
      if n != PREFIX_SIZE {
        reply := NoPrefix;
      } else {
        filled := filled.Put(got);
        assert filled.content[..PREFIX_SIZE] == got;
        reply := Prefix(Decode(filled.content[..PREFIX_SIZE]), rest);
      }
  }
}

=== FILE: end_to_end.dfy ===
/** Senders and receivers together: a stream of frames, each the size
    prefix followed by its payload, read by either receiver.

    The receivers are live only on schedules that let them finish: every
    read delivers enough bytes (four for the single prefix `read` as
    written, one otherwise) and the schedule outlasts the bytes.  On such
    schedules both receivers deliver every frame and close; on other
    schedules the single prefix `read` as written can end a connection
    early. */
module EndToEnd {
  import opened Bytes
  import opened LengthPrefix
  import opened Transport
  import opened FrameReader
  import opened FrameWriter
  import ChannelServer
  import SocketServer

  /** Every payload's size is a Java int, so that it has a size prefix. */
  predicate Framable(payloads: seq<seq<Byte>>)
  {
    forall i :: 0 <= i < |payloads| ==> |payloads[i]| < TWO_31
  }

  /** One frame as the senders put it on the wire. */
  function Frame(payload: seq<Byte>): (w: seq<Byte>)
    requires |payload| < TWO_31
    ensures |w| == PREFIX_SIZE + |payload|
  {
    Encode(|payload|) + payload
  }

  /** A connection's worth of frames, back to back. */
  function Wire(payloads: seq<seq<Byte>>): (w: seq<Byte>)
    requires Framable(payloads)
  {
    if |payloads| == 0 then [] else Frame(payloads[0]) + Wire(payloads[1..])
  }

  /** Every payload's size is read back from its prefix by the variant's
      decode: below 2^24 as written, any size once corrected. */
  predicate Readable(variant: Variant, payloads: seq<seq<Byte>>)
  {
    forall i :: 0 <= i < |payloads| ==> |payloads[i]| < TWO_31 && Faithful(variant.Decoding(), |payloads[i]|)
  }

  /** The least every read must deliver (when that much is asked for and
      available) for the receiver's prefix reads to succeed: the single
      `read(b4)` as written needs all four bytes at once. */
  function Least(variant: Variant): nat
  {
    if variant.AsWritten? then PREFIX_SIZE else 1
  }

  lemma WireCons(payloads: seq<seq<Byte>>)
    requires Framable(payloads) && |payloads| > 0
    ensures Framable(payloads[1..])
    ensures Wire(payloads) == Frame(payloads[0]) + Wire(payloads[1..])
  {
    var tail := payloads[1..];
    forall i | 0 <= i < |tail|
      ensures |tail[i]| < TWO_31
    {
      assert tail[i] == payloads[i + 1];
    }
  }

  lemma ReadableTail(variant: Variant, payloads: seq<seq<Byte>>)
    requires Readable(variant, payloads) && |payloads| > 0
    ensures Readable(variant, payloads[1..]) && Framable(payloads)
  {
    var tail := payloads[1..];
    forall i | 0 <= i < |tail|
      ensures |tail[i]| < TWO_31 && Faithful(variant.Decoding(), |tail[i]|)
    {
      assert tail[i] == payloads[i + 1];
    }
  }

  /** At the end of the stream, with a read left in the schedule, a prefix
      read reports the end and the connection closes. */
  lemma PrefixAtEnd(s: Stream, variant: Variant)
    requires s.data == [] && |s.grants| > 0
    ensures ReadPrefix(s, variant) == NoPrefix
  {
    assert Read(s, PREFIX_SIZE) == Answered(-1, [], Stream([], s.grants[1..]));
  }

  /** With four bytes available, a schedule that delivers `Least(variant)`
      bytes per read yields a prefix, consumes exactly those four bytes and
      leaves the schedule as good as it was. */
  lemma PrefixArrives(s: Stream, variant: Variant, k: nat)
    requires k >= Least(variant) && Progressing(s, k) && Ample(s) && |s.data| >= PREFIX_SIZE
    ensures ReadPrefix(s, variant).Prefix?
    ensures ReadPrefix(s, variant).rest.data == s.data[PREFIX_SIZE..]
    ensures Progressing(ReadPrefix(s, variant).rest, k) && Ample(ReadPrefix(s, variant).rest)
  {
    if variant.AsWritten? {
      assert s.grants[0] >= k;
      var r := Read(s, PREFIX_SIZE);
      assert ReadPrefix(s, variant) == Prefix(Decode(r.got), r.rest);
      ProgressingTail(s, k, r.rest);
    } else {
      FillCompletes(s, PREFIX_SIZE, k);
      var f := Fill(s, PREFIX_SIZE);
      assert ReadPrefix(s, variant) == Prefix(Decode24(f.got), f.rest);
    }
    PrefixInOrder(s, variant);
  }

  /** A frame at the head of the stream: its prefix decodes to the size of
      its payload and leaves the payload followed by the rest. */
  lemma FrameArrives(s: Stream, variant: Variant, k: nat, payload: seq<Byte>, more: seq<Byte>)
    requires |payload| < TWO_31 && Faithful(variant.Decoding(), |payload|)
    requires s.data == Frame(payload) + more
    requires k >= Least(variant) && Progressing(s, k) && Ample(s)
    ensures ReadPrefix(s, variant).Prefix?
    ensures ReadPrefix(s, variant).length == |payload|
    ensures ReadPrefix(s, variant).rest.data == payload + more
    ensures Progressing(ReadPrefix(s, variant).rest, k) && Ample(ReadPrefix(s, variant).rest)
  {
    var prefix := Encode(|payload|);
    ConcatAssoc(prefix, payload, more);
    Split(prefix, payload + more);
    PrefixArrives(s, variant, k);
    PrefixInOrder(s, variant);
    DecodeWithEncode(variant.Decoding(), |payload|);
  }

  /** A frame's payload drains completely, leaving what follows it. */
  lemma PayloadArrives(r: Stream, k: nat, capacity: nat, payload: seq<Byte>, more: seq<Byte>)
    requires capacity > 0 && k >= 1 && Progressing(r, k) && Ample(r)
    requires r.data == payload + more
    ensures Drain(r, |payload|, capacity).Drained?
    ensures Flatten(Drain(r, |payload|, capacity).chunks) == payload
    ensures Drain(r, |payload|, capacity).rest.data == more
    ensures Progressing(Drain(r, |payload|, capacity).rest, k) && Ample(Drain(r, |payload|, capacity).rest)
  {
    DrainCompletes(r, |payload|, capacity, k);
    assert r.data[..|payload|] == payload;
    assert r.data[|payload|..] == more;
  }

  /** The channel receiver delivers every frame of the wire, in order,
      counts each, and closes. */
  lemma {:induction false} ChannelDelivers(s: Stream, payloads: seq<seq<Byte>>, variant: Variant, capacity: nat, k: nat)
    requires capacity > 0 && k >= Least(variant)
    requires Readable(variant, payloads) && Framable(payloads) && s.data == Wire(payloads)
    requires Progressing(s, k) && Ample(s)
    ensures ChannelServer.Serve(s, variant, capacity) == Connection(Closed, |payloads|, payloads)
    decreases |payloads|
  {
    if |payloads| == 0 {
      PrefixAtEnd(s, variant);
    } else {
      var payload, tail := payloads[0], payloads[1..];
      ReadableTail(variant, payloads);
      WireCons(payloads);
      var next := ChannelFrame(s, variant, capacity, k, payload, Wire(tail));
      ChannelDelivers(next, tail, variant, capacity, k);
      ClosedAfter(payloads);
    }
  }

  /** A first frame in front of a connection that delivered the rest. */
  lemma ClosedAfter(payloads: seq<seq<Byte>>)
    requires |payloads| > 0
    ensures After([payloads[0]], Connection(Closed, |payloads[1..]|, payloads[1..])) == Connection(Closed, |payloads|, payloads)
  {
    assert payloads == [payloads[0]] + payloads[1..];
  }

  /** One frame through the channel receiver: `next` is the stream after
      it, and the connection goes on from there. */
  lemma ChannelFrame(s: Stream, variant: Variant, capacity: nat, k: nat, payload: seq<Byte>, more: seq<Byte>)
    returns (next: Stream)
    requires capacity > 0 && k >= Least(variant) && Progressing(s, k) && Ample(s)
    requires |payload| < TWO_31 && Faithful(variant.Decoding(), |payload|)
    requires s.data == Frame(payload) + more
    ensures next.data == more && Progressing(next, k) && Ample(next)
    ensures ChannelServer.Serve(s, variant, capacity) == After([payload], ChannelServer.Serve(next, variant, capacity))
  {
    FrameArrives(s, variant, k, payload, more);
    var p := ReadPrefix(s, variant);
    PayloadArrives(p.rest, k, capacity, payload, more);
    var d := Drain(p.rest, p.length, capacity);
    ChannelServer.ServeFrame(s, variant, capacity, p.length, p.rest, d.chunks, d.rest);
    next := d.rest;
  }

  /** Where the stream receiver puts payloads when it delivers them: skipped,
      or read into arrays of a configured strategy. */
  predicate Delivering(mode: SocketServer.Mode)
  {
    mode.Discard? || (mode.supplier.Supplier? && mode.supplier.strategy.capacity > 0)
  }

  /** The stream receiver, skipping or persisting, delivers every frame of
      the wire, in order, counts each, and closes. */
  lemma {:induction false} SocketDelivers(s: Stream, payloads: seq<seq<Byte>>, variant: Variant, mode: SocketServer.Mode, k: nat)
    requires Delivering(mode) && k >= Least(variant)
    requires Readable(variant, payloads) && Framable(payloads) && s.data == Wire(payloads)
    requires Progressing(s, k) && Ample(s)
    ensures SocketServer.Serve(s, variant, mode) == Connection(Closed, |payloads|, payloads)
    decreases |payloads|
  {
    if |payloads| == 0 {
      PrefixAtEnd(s, variant);
    } else {
      var payload, tail := payloads[0], payloads[1..];
      ReadableTail(variant, payloads);
      WireCons(payloads);
      FrameArrives(s, variant, k, payload, Wire(tail));
      var next := SocketFrame(s, variant, mode, k, payload, Wire(tail));
      SocketDelivers(next, tail, variant, mode, k);
      ClosedAfter(payloads);
    }
  }

  /** One frame through the stream receiver. */
  lemma SocketFrame(s: Stream, variant: Variant, mode: SocketServer.Mode, k: nat, payload: seq<Byte>, more: seq<Byte>)
    returns (next: Stream)
    requires Delivering(mode) && k >= Least(variant) && Progressing(s, k) && Ample(s)
    requires |payload| < TWO_31 && Faithful(variant.Decoding(), |payload|)
    requires s.data == Frame(payload) + more
    ensures next.data == more && Progressing(next, k) && Ample(next)
    ensures SocketServer.Serve(s, variant, mode) == After([payload], SocketServer.Serve(next, variant, mode))
  {
    FrameArrives(s, variant, k, payload, more);
    var p := ReadPrefix(s, variant);
    next := SocketPayload(p.rest, mode, k, payload, more);
    SocketServer.ServeConsumed(s, variant, mode, p.length, p.rest, payload, next);
  }

  /** One payload through the stream receiver's skip or persist branch:
      it is consumed whole, and `next` is the stream after it. */
  lemma SocketPayload(r: Stream, mode: SocketServer.Mode, k: nat, payload: seq<Byte>, more: seq<Byte>)
    returns (next: Stream)
    requires Delivering(mode) && k >= 1 && Progressing(r, k) && Ample(r)
    requires r.data == payload + more && |payload| < TWO_31
    ensures next.data == more && Progressing(next, k) && Ample(next)
    ensures SocketServer.Consume(r, |payload|, mode) == SocketServer.Consumed(payload, next)
  {
    if mode.Discard? {
      SocketServer.SkipCompletes(r, |payload|, k);
      SocketServer.SkipInOrder(r, |payload|);
      next := SocketServer.SkipNBytes(r, |payload|).rest;
      assert r.data[..|payload|] == payload;
      assert r.data == payload + next.data;
    } else {
      PayloadArrives(r, k, mode.supplier.strategy.capacity, payload, more);
      next := Drain(r, |payload|, mode.supplier.strategy.capacity).rest;
    }
  }

  /** Persisting without a buffer strategy: the first frame with a
      non-empty payload dereferences the missing supplier, after its prefix
      was counted. */
  lemma PersistWithoutSupplier(s: Stream, variant: Variant, k: nat, payload: seq<Byte>, more: seq<Byte>)
    requires |payload| > 0 && |payload| < TWO_31 && Faithful(variant.Decoding(), |payload|)
    requires s.data == Frame(payload) + more
    requires k >= Least(variant) && Progressing(s, k) && Ample(s)
    ensures SocketServer.Serve(s, variant, SocketServer.Persist(SocketServer.NoSupplier)) == Connection(Crashed, 1, [])
  {
    FrameArrives(s, variant, k, payload, more);
  }

  /** A connection carrying one file from the ByteBuffer sender: whatever
      buffer capacities the two sides use, the channel receiver gets the
      file back as its only frame and closes. */
  lemma SentFileReceived(src: Stream, sendCapacity: nat, k: nat, s: Stream, variant: Variant, capacity: nat, k': nat)
    requires sendCapacity >= MIN_CAPACITY && SizeFits(src) && k >= 1 && Progressing(src, k) && Ample(src)
    requires Faithful(variant.Decoding(), |src.data|)
    requires SendBuffered(src, sendCapacity).Sent? ==> s.data == Flatten(SendBuffered(src, sendCapacity).chunks)
    requires capacity > 0 && k' >= Least(variant) && Progressing(s, k') && Ample(s)
    ensures SendBuffered(src, sendCapacity).Sent?
    ensures ChannelServer.Serve(s, variant, capacity) == Connection(Closed, 1, [src.data])
  {
    SendBufferedFrame(src, sendCapacity, k);
    var payloads := [src.data];
    assert Framable(payloads) && Readable(variant, payloads);
    WireCons(payloads);
    assert payloads[1..] == [];
    assert Wire(payloads) == Frame(src.data) + [];
    ChannelDelivers(s, payloads, variant, capacity, k');
  }

  /** The prefix split across two segments, as TCP may deliver it: the
      single-byte frame `[7]` whose first read returns only two bytes. */
  const SPLIT := Stream([1, 0, 0, 0, 7], [2, 3, 1, 1])

  lemma SplitFrame()
    ensures SPLIT.data == Frame([7])
  {
    assert Encode(1) == [1, 0, 0, 0];
  }

  /** The receivers as written take the short prefix read for the end of
      the connection and report no frame at all. */
  lemma SplitPrefixLost()
    ensures ChannelServer.Serve(SPLIT, AsWritten, 8) == Connection(Closed, 0, [])
    ensures SocketServer.Serve(SPLIT, AsWritten, SocketServer.Discard) == Connection(Closed, 0, [])
    ensures SocketServer.Serve(SPLIT, AsWritten, SocketServer.Persist(SocketServer.NoSupplier)) == Connection(Closed, 0, [])
  {
    assert Read(SPLIT, PREFIX_SIZE) == Answered(2, [1, 0], Stream([0, 0, 7], [3, 1, 1]));
    assert ReadPrefix(SPLIT, AsWritten) == NoPrefix;
  }

  /** Filling the prefix, as the corrected receivers do, reads it across
      both segments. */
  lemma SplitPrefixFilled()
    ensures ReadPrefix(SPLIT, Corrected) == Prefix(1, Stream([7], [1, 1]))
  {
    var mid := Stream([0, 0, 7], [3, 1, 1]);
    var after := Stream([7], [1, 1]);
    assert Read(SPLIT, PREFIX_SIZE) == Answered(2, [1, 0], mid);
    SplitPrefixSecond();
    FillRead(SPLIT, PREFIX_SIZE, 2, [1, 0], mid, 2);
    assert [1, 0] + [0, 0] == [1, 0, 0, 0];
    assert Fill(SPLIT, PREFIX_SIZE) == Filled([1, 0, 0, 0], after);
    assert DecodeWith(Shift24, [1, 0, 0, 0]) == 1;
  }

  /** The second read delivers the other half of the prefix. */
  lemma SplitPrefixSecond()
    ensures Fill(Stream([0, 0, 7], [3, 1, 1]), 2) == Filled([0, 0], Stream([7], [1, 1]))
  {
    var after := Stream([7], [1, 1]);
    assert Read(Stream([0, 0, 7], [3, 1, 1]), 2) == Answered(2, [0, 0], after);
    assert Fill(after, 0) == Filled([], after);
  }

  /** The payload byte follows in a segment of its own. */
  lemma SplitPayloadDrained()
    ensures Drain(Stream([7], [1, 1]), 1, 8) == Drained([[7]], Stream([], [1]))
    ensures Flatten([[7]]) == [7]
  {
    var after := Stream([7], [1, 1]);
    var end := Stream([], [1]);
    assert Read(after, 1) == Answered(1, [7], end);
    assert Fill(end, 0) == Filled([], end);
    assert Fill(after, 1) == Filled([7], end);
    assert Drain(end, 0, 8) == Drained([], end);
    FlattenCons([7], []);
  }

  /** ... so the corrected channel receiver delivers the frame ... */
  lemma SplitPrefixKeptByChannel()
    ensures ChannelServer.Serve(SPLIT, Corrected, 8) == Connection(Closed, 1, [[7]])
  {
    SplitPrefixFilled();
    SplitPayloadDrained();
    var end := Stream([], [1]);
    PrefixAtEnd(end, Corrected);
    ChannelServer.ServeFrame(SPLIT, Corrected, 8, 1, Stream([7], [1, 1]), [[7]], end);
  }

  /** ... and so does the corrected stream receiver ... */
  lemma SplitPrefixKeptBySocket()
    ensures SocketServer.Serve(SPLIT, Corrected, SocketServer.Discard) == Connection(Closed, 1, [[7]])
  {
    SplitPrefixFilled();
    var after := Stream([7], [1, 1]);
    var end := Stream([], [1]);
    SplitPayloadSkipped();
    PrefixAtEnd(end, Corrected);
    SocketServer.ServeConsumed(SPLIT, Corrected, SocketServer.Discard, 1, after, [7], end);
  }

  /** ... whose skip of the one payload byte takes one read. */
  lemma SplitPayloadSkipped()
    ensures SocketServer.Consume(Stream([7], [1, 1]), 1, SocketServer.Discard)
      == SocketServer.Consumed([7], Stream([], [1]))
  {
    var after := Stream([7], [1, 1]);
    var end := Stream([], [1]);
    assert Read(after, 1) == Answered(1, [7], end);
    assert SocketServer.SkipNBytes(end, 0) == SocketServer.Skipped(end);
    assert SocketServer.SkipNBytes(after, 1) == SocketServer.Skipped(end);
    assert after.data[..Max0(1)] == [7];
  }

  /** A frame announcing five payload bytes of which the peer sent one.
      When the peer stays connected and silent, the skipping receiver blocks
      inside the frame, as `skipNBytes` does ... */
  const SHORT: seq<Byte> := [5, 0, 0, 0, 9]

  lemma ShortPrefix(grants: seq<nat>)
    requires |grants| > 0 && grants[0] == PREFIX_SIZE
    ensures ReadPrefix(Stream(SHORT, grants), AsWritten) == Prefix(5, Stream([9], grants[1..]))
  {
    var s := Stream(SHORT, grants);
    assert Read(s, PREFIX_SIZE) == Answered(4, [5, 0, 0, 0], Stream([9], grants[1..]));
    assert ByteOr(5, 0) == 5;
  }

  lemma SilentPeerBlocksSkip()
    ensures SocketServer.Serve(Stream(SHORT, [4]), AsWritten, SocketServer.Discard) == Connection(HangsInFrame, 1, [])
  {
    ShortPrefix([4]);
    var rest := Stream([9], []);
    assert SocketServer.SkipNBytes(rest, 5) == SocketServer.SkipBlocked;
  }

  /** ... and when the peer closes, the skip ends with an `EOFException`,
      which ends the connection. */
  lemma ClosedPeerAbortsSkip()
    ensures SocketServer.Serve(Stream(SHORT, [4, 1, 1]), AsWritten, SocketServer.Discard) == Connection(Aborted, 1, [])
  {
    ShortPrefix([4, 1, 1]);
    var rest := Stream([9], [1, 1]);
    var end := Stream([], [1]);
    assert Read(rest, 5) == Answered(1, [9], end);
    assert SocketServer.SkipNBytes(end, 4) == SocketServer.EndOfStream;
    assert SocketServer.SkipNBytes(rest, 5) == SocketServer.EndOfStream;
  }

  /** The channel receiver on a closed peer keeps reading -1 and never
      finishes the frame. */
  lemma ClosedPeerStallsChannel()
    ensures ChannelServer.Serve(Stream(SHORT, [4, 1, 1]), AsWritten, 8) == Connection(HangsInFrame, 1, [])
  {
    ShortPrefix([4, 1, 1]);
    var rest := Stream([9], [1, 1]);
    var end := Stream([], [1]);
    assert Read(rest, 5) == Answered(1, [9], end);
    assert Fill(end, 4) == Filled([], Stream([], []));
    assert Fill(rest, 5) == Filled([9], Stream([], []));
    assert Drain(Stream([], []), 4, 8).DrainStuck?;
    assert Drain(rest, 5, 8).DrainStuck?;
    ChannelServer.ServeHangsInFrame(Stream(SHORT, [4, 1, 1]), AsWritten, 8, 5, rest);
  }
}

=== FILE: frame_reader.dfy ===
/** Reading one frame's payload once its length is known.

    Both receivers run the same loop on a `remaining` counter: fill a buffer
    region of `min(capacity, remaining)` bytes, subtract the bytes that
    actually arrived, hand exactly those bytes to the sink, repeat while
    `remaining > 0`.  `Drain` is that loop as a function; the servers'
    buffer-level loops are proved equal to it. */
module FrameReader {
  import opened Bytes
  import opened Transport
  import opened LengthPrefix

  /** The chunks handed to the sink (one per buffer fill, possibly empty),
      and either the stream after the frame or a read that never returned. */
  datatype DrainResult = Drained(chunks: seq<seq<Byte>>, rest: Stream) | DrainStuck(chunks: seq<seq<Byte>>)

  function Max0(n: int): nat
  {
    if n < 0 then 0 else n
  }

  /** Drain a frame of declared `length` through buffers of `capacity`
      bytes: `transfer` in the channel server, the persist loop in the
      socket server.  A frame of length 0 or less needs no buffer at all. */
  function Drain(s: Stream, length: int, capacity: nat): (r: DrainResult)
    requires capacity > 0
    ensures r.Drained? ==> |r.rest.grants| <= |s.grants|
    ensures length <= 0 ==> r == Drained([], s)
    ensures length > 0 ==> |r.chunks| > 0 || r == DrainStuck([])
    decreases |s.grants|
  {
    if length <= 0 then Drained([], s)
    else match Fill(s, Min(capacity, length))
      case Stuck => DrainStuck([])
      case Filled(got, rest) =>
        match Drain(rest, length - |got|, capacity)
        case Drained(more, rest') => Drained([got] + more, rest')
        case DrainStuck(more) => DrainStuck([got] + more)
  }

  /** The sink sees stream bytes in order, and never more than `length` of
      them; a completed drain consumed exactly `length` bytes and nothing of
      what follows. */
  predicate InOrder(data: seq<Byte>, r: DrainResult, length: int)
  {
    && Flatten(r.chunks) <= data
    && |Flatten(r.chunks)| <= Max0(length)
    && (r.Drained? ==> data == Flatten(r.chunks) + r.rest.data && |Flatten(r.chunks)| == Max0(length))
  }

  lemma {:induction false} DrainInOrder(s: Stream, length: int, capacity: nat)
    requires capacity > 0
    ensures InOrder(s.data, Drain(s, length, capacity), length)
    decreases |s.grants|
  {
    if length <= 0 {
      assert s.data == [] + s.data;
    } else {
      var f := Fill(s, Min(capacity, length));
      if f.Filled? {
        var left := length - |f.got|;
        DrainFilled(s, length, capacity, f.got, f.rest, left);
        FillInOrder(s, Min(capacity, length));
        DrainInOrder(f.rest, left, capacity);
        PrependInOrder(s.data, f.got, f.rest.data, length, Drain(f.rest, left, capacity));
      } else {
        DrainStuckFill(s, length, capacity);
      }
    }
  }

  /** The bytes of one fill in front of an in-order drain of what follows
      them. */
  lemma PrependInOrder(data: seq<Byte>, got: seq<Byte>, after: seq<Byte>, length: int, r: DrainResult)
    requires data == got + after && |got| <= length
    requires InOrder(after, r, length - |got|)
    ensures InOrder(data, Prepend([got], r), length)
  {
    FlattenCons(got, r.chunks);
    var more := Flatten(r.chunks);
    assert Prepend([got], r).chunks == [got] + r.chunks;
    assert data[..|got| + |more|] == got + more;
    if r.Drained? {
      ConcatAssoc(got, more, r.rest.data);
    }
  }

  /** No chunk is longer than `n` bytes. */
  predicate ChunksAtMost(chunks: seq<seq<Byte>>, n: int)
  {
    forall i :: 0 <= i < |chunks| ==> |chunks[i]| <= n
  }

  lemma ChunksAtMostCons(chunk: seq<Byte>, more: seq<seq<Byte>>, n: int, m: int)
    requires |chunk| <= n && m <= n && ChunksAtMost(more, m)
    ensures ChunksAtMost([chunk] + more, n)
  {
    var all := [chunk] + more;
    forall i | 0 <= i < |all|
      ensures |all[i]| <= n
    {
      if i > 0 {
        assert all[i] == more[i - 1];
      }
    }
  }

  /** Each fill reads at most `min(capacity, length)` bytes. */
  lemma {:induction false} DrainChunkSizes(s: Stream, length: int, capacity: nat)
    requires capacity > 0
    ensures ChunksAtMost(Drain(s, length, capacity).chunks, Min(capacity, length))
    decreases |s.grants|
  {
    if length > 0 {
      var f := Fill(s, Min(capacity, length));
      if f.Filled? {
        var left := length - |f.got|;
        DrainChunkSizes(f.rest, left, capacity);
        DrainChunkStep(s, length, capacity, f.got, f.rest, left);
      } else {
        DrainStuckFill(s, length, capacity);
      }
    }
  }

  /** A fill of at most `min(capacity, length)` bytes in front of chunks of
      at most `min(capacity, length - |got|)` bytes. */
  lemma DrainChunkStep(s: Stream, length: int, capacity: nat, got: seq<Byte>, rest: Stream, left: int)
    requires capacity > 0 && length > 0 && left == length - |got|
    requires Fill(s, Min(capacity, length)) == Filled(got, rest)
    requires ChunksAtMost(Drain(rest, left, capacity).chunks, Min(capacity, left))
    ensures ChunksAtMost(Drain(s, length, capacity).chunks, Min(capacity, length))
  {
    DrainFilled(s, length, capacity, got, rest, left);
    var more := Drain(rest, left, capacity).chunks;
    ChunksAtMostCons(got, more, Min(capacity, length), Min(capacity, left));
    assert Drain(s, length, capacity).chunks == [got] + more;
  }

  /** A frame cut short by the end of the stream never completes: every
      further read returns -1, leaves `length` as it was and hands an empty
      chunk to the sink, until a read never returns. */
  lemma {:induction false} DrainAtEnd(s: Stream, length: int, capacity: nat)
    requires capacity > 0 && s.data == [] && length > 0
    ensures Drain(s, length, capacity).DrainStuck?
    ensures Flatten(Drain(s, length, capacity).chunks) == []
    decreases |s.grants|
  {
    if |s.grants| > 0 {
      var rest := Stream([], s.grants[1..]);
      assert Read(s, Min(capacity, length)) == Answered(-1, [], rest);
      assert Fill(s, Min(capacity, length)) == Filled([], rest);
      DrainAtEnd(rest, length, capacity);
      DrainFilled(s, length, capacity, [], rest, length);
      FlattenCons([], Drain(rest, length, capacity).chunks);
    }
  }

  /** Put chunks already handed to the sink in front of a drain's outcome. */
  function Prepend(chunks: seq<seq<Byte>>, r: DrainResult): DrainResult
  {
    match r
    case Drained(more, rest) => Drained(chunks + more, rest)
    case DrainStuck(more) => DrainStuck(chunks + more)
  }

  lemma PrependNone(r: DrainResult)
    ensures Prepend([], r) == r
  {
    assert [] + r.chunks == r.chunks;
  }

  lemma PrependPrepend(a: seq<seq<Byte>>, b: seq<seq<Byte>>, r: DrainResult)
    ensures Prepend(a, Prepend(b, r)) == Prepend(a + b, r)
  {
    assert a + (b + r.chunks) == (a + b) + r.chunks;
  }

  /** One step of the `remaining` loop: a fill that returns hands its bytes
      to the sink and the loop continues with `length` reduced by them ... */
  lemma DrainFilled(s: Stream, length: int, capacity: nat, got: seq<Byte>, rest: Stream, left: int)
    requires capacity > 0 && length > 0 && left == length - |got|
    requires Fill(s, Min(capacity, length)) == Filled(got, rest)
    ensures Drain(s, length, capacity) == Prepend([got], Drain(rest, left, capacity))
  {
  }

  /** ... and a fill whose read never returns leaves the drain stuck. */
  lemma DrainStuckFill(s: Stream, length: int, capacity: nat)
    requires capacity > 0 && length > 0
    requires Fill(s, Min(capacity, length)).Stuck?
    ensures Drain(s, length, capacity) == DrainStuck([])
  {
  }

  /** The `remaining` loop's bookkeeping: with `chunks` handed to the sink
      so far and `Drain` of the unread remainder still to come, a fill that
      returns moves its bytes from the one to the other ... */
  lemma DrainAdvance(total: DrainResult, chunks: seq<seq<Byte>>, s: Stream, length: int, capacity: nat,
                     got: seq<Byte>, rest: Stream, chunks': seq<seq<Byte>>, length': int)
    requires capacity > 0 && length > 0
    requires total == Prepend(chunks, Drain(s, length, capacity))
    requires Fill(s, Min(capacity, length)) == Filled(got, rest)
    requires chunks' == chunks + [got] && length' == length - |got|
    ensures total == Prepend(chunks', Drain(rest, length', capacity))
  {
    DrainFilled(s, length, capacity, got, rest, length');
    var next := Drain(rest, length', capacity);
    assert Drain(s, length, capacity) == Prepend([got], next);
    PrependPrepend(chunks, [got], next);
  }

  /** ... a fill that never returns leaves the loop stuck with what it
      handed over ... */
  lemma DrainHalt(total: DrainResult, chunks: seq<seq<Byte>>, s: Stream, length: int, capacity: nat)
    requires capacity > 0 && length > 0
    requires total == Prepend(chunks, Drain(s, length, capacity))
    requires Fill(s, Min(capacity, length)).Stuck?
    ensures total == DrainStuck(chunks)
  {
    DrainStuckFill(s, length, capacity);
    assert chunks + [] == chunks;
  }

  /** ... and nothing left to read completes it. */
  lemma DrainDone(total: DrainResult, chunks: seq<seq<Byte>>, s: Stream, length: int, capacity: nat)
    requires capacity > 0 && length <= 0
    requires total == Prepend(chunks, Drain(s, length, capacity))
    ensures total == Drained(chunks, s)
  {
    assert chunks + [] == chunks;
  }

  /** When the whole frame is in the stream and the read schedule makes
      progress, the drain completes, consumes exactly the frame, and leaves
      the schedule still progressing and ample. */
  lemma {:induction false} DrainCompletes(s: Stream, length: int, capacity: nat, k: nat)
    requires capacity > 0 && k >= 1
    requires Progressing(s, k) && Ample(s) && length <= |s.data|
    ensures Drain(s, length, capacity).Drained?
    ensures Flatten(Drain(s, length, capacity).chunks) == s.data[..Max0(length)]
    ensures Drain(s, length, capacity).rest.data == s.data[Max0(length)..]
    ensures Progressing(Drain(s, length, capacity).rest, k) && Ample(Drain(s, length, capacity).rest)
    decreases |s.grants|
  {
    if length > 0 {
      var space := Min(capacity, length);
      FillCompletes(s, space, k);
      FillInOrder(s, space);
      var f := Fill(s, space);
      var left := length - |f.got|;
      DrainCompletes(f.rest, left, capacity, k);
      DrainFilled(s, length, capacity, f.got, f.rest, left);
    }
    DrainInOrder(s, length, capacity);
    DrainedSlices(s.data, Drain(s, length, capacity), length);
  }

  /** A completed in-order drain split the bytes at `length`. */
  lemma DrainedSlices(data: seq<Byte>, r: DrainResult, length: int)
    requires InOrder(data, r, length) && r.Drained?
    ensures Flatten(r.chunks) == data[..Max0(length)]
    ensures r.rest.data == data[Max0(length)..]
  {
    Split(Flatten(r.chunks), r.rest.data);
  }

  /** The receivers as written, or with both prefix defects corrected: the
      prefix read is repeated until four bytes are in (instead of a single
      `read` that must return 4), and the top byte is shifted by 24. */
  datatype Variant = AsWritten | Corrected
  {
    function Decoding(): Decoding
    {
      if AsWritten? then Shift32 else Shift24
    }
  }

  /** The outcome of reading a length prefix: the read never returns, the
      connection ends (a read returned anything but a full prefix), or a
      decoded length. */
  datatype PrefixReply = PrefixBlocked | NoPrefix | Prefix(length: Int32, rest: Stream)

  /** Read and decode one length prefix into a cleared 4-byte buffer. */
  function ReadPrefix(s: Stream, variant: Variant): (r: PrefixReply)
    ensures r.Prefix? ==> |r.rest.grants| < |s.grants|
    ensures r.PrefixBlocked? <==> (variant.AsWritten? && |s.grants| == 0) || (variant.Corrected? && Fill(s, PREFIX_SIZE).Stuck?)
    ensures variant.AsWritten? && |s.grants| > 0 ==> (r.Prefix? <==> |s.data| >= PREFIX_SIZE && s.grants[0] >= PREFIX_SIZE)
  {
    match variant
    case AsWritten =>
      (match Read(s, PREFIX_SIZE)
       case Blocked => PrefixBlocked
       case Answered(n, got, rest) =>
         if n == PREFIX_SIZE then Prefix(DecodeWith(Shift32, got), rest) else NoPrefix)
    case Corrected =>
      match Fill(s, PREFIX_SIZE)
      case Stuck => PrefixBlocked
      case Filled(got, rest) =>
        if |got| == PREFIX_SIZE then Prefix(DecodeWith(Shift24, got), rest) else NoPrefix
  }

  /** A prefix is the next four bytes of the stream, decoded as the variant
      decodes, and the payload starts right after it. */
  lemma PrefixInOrder(s: Stream, variant: Variant)
    requires ReadPrefix(s, variant).Prefix?
    ensures |s.data| >= PREFIX_SIZE && s.data == s.data[..PREFIX_SIZE] + ReadPrefix(s, variant).rest.data
    ensures ReadPrefix(s, variant).length == DecodeWith(variant.Decoding(), s.data[..PREFIX_SIZE])
  {
    if variant.AsWritten? {
      ReadInOrder(s, PREFIX_SIZE);
    } else {
      FillInOrder(s, PREFIX_SIZE);
    }
  }

  /** How a connection's frame loop ends.  Only `Closed` reaches the
      "Received N objects" report; `Aborted` is an `IOException` caught at the
      connection boundary and `Crashed` an exception nothing catches. */
  datatype Ending = Closed | Hangs | HangsInFrame | Aborted | Crashed

  /** What a receiver reports for one connection: how its frame loop ended,
      the value of `count`, and the payloads of the completed frames. */
  datatype Connection = Connection(ending: Ending, count: nat, frames: seq<seq<Byte>>)

  /** Put frames already received in front of the rest of a connection. */
  function After(frames: seq<seq<Byte>>, c: Connection): Connection
  {
    Connection(c.ending, c.count + |frames|, frames + c.frames)
  }

  lemma AfterNone(c: Connection)
    ensures After([], c) == c
  {
    assert [] + c.frames == c.frames;
  }

  lemma AfterAfter(a: seq<seq<Byte>>, b: seq<seq<Byte>>, c: Connection)
    ensures After(a, After(b, c)) == After(a + b, c)
  {
    assert a + (b + c.frames) == (a + b) + c.frames;
  }
}

=== FILE: frame_writer.dfy ===
/** The two sender framers of the benchmark (`testByteBuffer` and
    `testByteArray`): each sends one file as one frame, reading it through
    buffers of a fixed capacity and writing each buffer's filled part to
    the socket.  The prefix goes in front of the first chunk only, and a
    new chunk is read only while the previous one came out completely
    full.  The file is read through the same `Fill` loop as the sockets. */
module FrameWriter {
  import opened Bytes
  import opened LengthPrefix
  import opened Transport
  import opened FrameReader

  /** The capacity of every sender buffer holds the prefix and at least one
      payload byte (the benchmark uses 8096 and 64768). */
  const MIN_CAPACITY: nat := PREFIX_SIZE + 1

  /** The writes issued, in order, or a file read that never returned after
      the given writes. */
  datatype Sent = Sent(chunks: seq<seq<Byte>>) | SendStuck(chunks: seq<seq<Byte>>)

  function Precede(chunk: seq<Byte>, r: Sent): (r': Sent)
    ensures r'.chunks == [chunk] + r.chunks && r'.Sent? == r.Sent?
  {
    match r
    case Sent(more) => Sent([chunk] + more)
    case SendStuck(more) => SendStuck([chunk] + more)
  }

  /** The file size as the senders see it: `(int) Files.size(path)`. */
  predicate SizeFits(src: Stream)
  {
    |src.data| < TWO_31
  }

  /** `testByteBuffer`: the four prefix bytes are put first while the
      running total `write` of bytes written is 0.  That total is 0 exactly
      until the first write, which carries the prefix, so `first` stands
      for `write == 0`; the final total is the length of the flattened
      writes (see `SendBufferedFrame`).  The prefix bytes are those of the
      file size, which never changes inside the loop, so they are computed
      once by `SendBuffered` and passed down.  The loop goes on while the
      buffer came out full (`b.position() == b.capacity()`). */
  function BufferWriter(src: Stream, prefix: seq<Byte>, capacity: nat, first: bool): (r: Sent)
    requires capacity >= MIN_CAPACITY && |prefix| == PREFIX_SIZE
    ensures r.Sent? ==> |r.chunks| > 0
    decreases |src.grants|
  {
    var head := if first then prefix else [];
    match Fill(src, capacity - |head|)
    case Stuck => SendStuck([])
    case Filled(got, rest) =>
      var chunk := head + got;
      if |chunk| == capacity then
        var r := BufferWriter(rest, prefix, capacity, false);
        Precede(chunk, r)
      else Sent([chunk])
  }

  /** `testByteArray`, where the Java variable `length` holds the file size
      on entry and the unread part of the array afterwards.  As written the
      prefix is stored when `length != 0`; since the loop only continues
      with `length == 0`, that is the first chunk of a non-empty file.  The
      corrected framer stores it in the first chunk whatever the size.  Each
      write is `b[0, b.length - length)`: the prefix, if any, then the bytes
      read.  As for `BufferWriter`, the prefix bytes of the file size are
      computed once by `SendArray`. */
  function ArrayWriter(src: Stream, length: Int32, prefix: seq<Byte>, capacity: nat, first: bool, variant: Variant): (r: Sent)
    requires capacity >= MIN_CAPACITY && |prefix| == PREFIX_SIZE
    ensures r.Sent? ==> |r.chunks| > 0
    decreases |src.grants|
  {
    var prefixed := if variant.AsWritten? then length != 0 else first;
    var head := if prefixed then prefix else [];
    var space := capacity - |head|;
    match Fill(src, space)
    case Stuck => SendStuck([])
    case Filled(got, rest) =>
      var left := space - |got|;
      var chunk := head + got;
      if left == 0 then
        var r := ArrayWriter(rest, 0, prefix, capacity, false, variant);
        Precede(chunk, r)
      else Sent([chunk])
  }

  /** The ByteBuffer sender of one file: `(int) s.size()` encoded as the
      prefix, the running total starting at 0.  On every schedule, a send
      that completes starts with the prefix. */
  function SendBuffered(src: Stream, capacity: nat): (r: Sent)
    requires capacity >= MIN_CAPACITY && SizeFits(src)
    ensures r.Sent? ==> |r.chunks| > 0 && |r.chunks[0]| >= PREFIX_SIZE && r.chunks[0][..PREFIX_SIZE] == Encode(|src.data|)
  {
    BufferWriter(src, Encode(|src.data|), capacity, true)
  }

  /** The byte-array sender of one file: `(int) Files.size(path)` in
      `length`, encoded as the prefix of the first chunk.  On every
      schedule, a send that completes starts with the prefix, except for an
      empty file as written, which is sent as one empty write. */
  function SendArray(src: Stream, capacity: nat, variant: Variant): (r: Sent)
    requires capacity >= MIN_CAPACITY && SizeFits(src)
    ensures r.Sent? && (variant.Corrected? || |src.data| != 0) ==>
      |r.chunks| > 0 && |r.chunks[0]| >= PREFIX_SIZE && r.chunks[0][..PREFIX_SIZE] == Encode(|src.data|)
    ensures r.Sent? && variant.AsWritten? && |src.data| == 0 ==> r.chunks == [[]]
  {
    ArrayWriter(src, |src.data|, Encode(|src.data|), capacity, true, variant)
  }

  /** Every chunk but the last is exactly full; the last is not. */
  predicate Chunked(chunks: seq<seq<Byte>>, capacity: nat)
  {
    && |chunks| > 0
    && (forall i :: 0 <= i < |chunks| - 1 ==> |chunks[i]| == capacity)
    && |chunks[|chunks| - 1]| < capacity
  }

  lemma ChunkedCons(chunk: seq<Byte>, more: seq<seq<Byte>>, capacity: nat)
    requires |chunk| == capacity && Chunked(more, capacity)
    ensures Chunked([chunk] + more, capacity)
  {
    var all := [chunk] + more;
    forall i | 0 <= i < |all| - 1
      ensures |all[i]| == capacity
    {
      if i > 0 {
        assert all[i] == more[i - 1];
      }
    }
  }

  lemma {:induction false} MulAtLeast(c: nat, d: nat)
    requires d >= 1
    ensures c * d >= c
    decreases d
  {
    if d > 1 {
      MulAtLeast(c, d - 1);
      assert c * d == c * (d - 1) + c;
    }
  }

  /** Division by a positive divisor has a unique quotient. */
  lemma DivUnique(x: int, c: int, a: int, b: int)
    requires c > 0 && x == c * a + b && 0 <= b < c
    ensures x / c == a
  {
    var q := x / c;
    var r := x % c;
    assert c * q + r == c * a + b;
    assert c * (q - a) == c * q - c * a;
    if q > a {
      MulAtLeast(c, q - a);
    } else if q < a {
      assert c * (a - q) == c * a - c * q;
      MulAtLeast(c, a - q);
    }
  }

  /** One more full divisor adds one to the quotient. */
  lemma DivSucc(m: nat, c: nat)
    requires c > 0
    ensures (c + m) / c == m / c + 1
  {
    var q, r := m / c, m % c;
    assert m == c * q + r;
    assert c * (q + 1) == c * q + c;
    DivUnique(c + m, c, q + 1, r);
  }

  /** Dropping a full first chunk leaves a chunked send. */
  lemma ChunkedTail(chunks: seq<seq<Byte>>, capacity: nat)
    requires Chunked(chunks, capacity) && |chunks| > 1
    ensures Chunked(chunks[1..], capacity)
  {
    var more := chunks[1..];
    forall i | 0 <= i < |more| - 1
      ensures |more[i]| == capacity
    {
      assert more[i] == chunks[i + 1];
    }
  }

  /** A chunked stream of `n` bytes takes `n / capacity + 1` writes: when
      `n` is a multiple of the capacity the last write is empty. */
  lemma {:induction false} ChunkCount(chunks: seq<seq<Byte>>, capacity: nat)
    requires capacity > 0 && Chunked(chunks, capacity)
    ensures |chunks| == |Flatten(chunks)| / capacity + 1
  {
    if |chunks| > 1 {
      var more := chunks[1..];
      ChunkedTail(chunks, capacity);
      ChunkCount(more, capacity);
      FlattenCons(chunks[0], more);
      assert chunks == [chunks[0]] + more;
      DivSucc(|Flatten(more)|, capacity);
    } else {
      assert chunks == [chunks[0]] + [];
      FlattenCons(chunks[0], []);
      DivUnique(|Flatten(chunks)|, capacity, 0, |Flatten(chunks)|);
    }
  }

  /** One chunk of the ByteBuffer framer once the prefix has gone out. */
  lemma BufferWriterStep(src: Stream, prefix: seq<Byte>, capacity: nat)
    requires capacity >= MIN_CAPACITY && |prefix| == PREFIX_SIZE
    requires Fill(src, capacity).Filled?
    ensures var f := Fill(src, capacity);
      BufferWriter(src, prefix, capacity, false)
        == if |f.got| == capacity then Precede(f.got, BufferWriter(f.rest, prefix, capacity, false))
           else Sent([f.got])
  {
    assert [] + Fill(src, capacity).got == Fill(src, capacity).got;
  }

  /** A full chunk in front of a chunked send keeps it chunked. */
  lemma SentCons(chunk: seq<Byte>, more: Sent, capacity: nat)
    requires |chunk| == capacity && more.Sent? && Chunked(more.chunks, capacity)
    ensures Precede(chunk, more).Sent?
    ensures Flatten(Precede(chunk, more).chunks) == chunk + Flatten(more.chunks)
    ensures Chunked(Precede(chunk, more).chunks, capacity)
  {
    FlattenCons(chunk, more.chunks);
    ChunkedCons(chunk, more.chunks, capacity);
  }

  /** A single partial chunk is a chunked send of its own bytes. */
  lemma SentLast(chunk: seq<Byte>, capacity: nat)
    requires |chunk| < capacity
    ensures Flatten(Sent([chunk]).chunks) == chunk
    ensures Chunked(Sent([chunk]).chunks, capacity)
  {
    assert [chunk] == [chunk] + [];
    FlattenCons(chunk, []);
  }

  /** After the first chunk, the ByteBuffer framer sends the rest of the
      file, in order, in full chunks and one final partial chunk. */
  lemma {:induction false} BufferWriterTail(src: Stream, prefix: seq<Byte>, capacity: nat, k: nat)
    requires capacity >= MIN_CAPACITY && |prefix| == PREFIX_SIZE && k >= 1
    requires Progressing(src, k) && Ample(src)
    ensures BufferWriter(src, prefix, capacity, false).Sent?
    ensures Flatten(BufferWriter(src, prefix, capacity, false).chunks) == src.data
    ensures Chunked(BufferWriter(src, prefix, capacity, false).chunks, capacity)
    decreases |src.grants|
  {
    FillCompletes(src, capacity, k);
    var f := Fill(src, capacity);
    if |f.got| == capacity {
      BufferWriterTail(f.rest, prefix, capacity, k);
    }
    BufferWriterTailStep(src, prefix, capacity, f.got, f.rest);
  }

  /** The ByteBuffer framer past its first chunk sends a stream in order
      and chunked when its first fill completes and it sends what is left
      after a full chunk in order and chunked. */
  lemma BufferWriterTailStep(src: Stream, prefix: seq<Byte>, capacity: nat, got: seq<Byte>, rest: Stream)
    requires capacity >= MIN_CAPACITY && |prefix| == PREFIX_SIZE
    requires Fill(src, capacity) == Filled(got, rest) && |got| == Min(capacity, |src.data|)
    requires |got| == capacity ==>
      && BufferWriter(rest, prefix, capacity, false).Sent?
      && Flatten(BufferWriter(rest, prefix, capacity, false).chunks) == rest.data
      && Chunked(BufferWriter(rest, prefix, capacity, false).chunks, capacity)
    ensures BufferWriter(src, prefix, capacity, false).Sent?
    ensures Flatten(BufferWriter(src, prefix, capacity, false).chunks) == src.data
    ensures Chunked(BufferWriter(src, prefix, capacity, false).chunks, capacity)
  {
    BufferWriterStep(src, prefix, capacity);
    FillInOrder(src, capacity);
    if |got| == capacity {
      SentCons(got, BufferWriter(rest, prefix, capacity, false), capacity);
    } else {
      assert got == src.data;
      SentLast(got, capacity);
    }
  }

  /** From its first chunk on, the ByteBuffer framer sends the prefix and
      then the whole file, in full chunks and one final partial (possibly
      empty) chunk, the first starting with the prefix. */
  lemma BufferWriterFrame(src: Stream, prefix: seq<Byte>, capacity: nat, k: nat)
    requires capacity >= MIN_CAPACITY && |prefix| == PREFIX_SIZE && k >= 1
    requires Progressing(src, k) && Ample(src)
    ensures var r := BufferWriter(src, prefix, capacity, true);
      && r.Sent?
      && Flatten(r.chunks) == prefix + src.data
      && Chunked(r.chunks, capacity)
      && r.chunks[0][..PREFIX_SIZE] == prefix
  {
    var space := capacity - PREFIX_SIZE;
    FillCompletes(src, space, k);
    FillInOrder(src, space);
    var f := Fill(src, space);
    var r := BufferWriter(src, prefix, capacity, true);
    var chunk := prefix + f.got;
    assert chunk[..PREFIX_SIZE] == prefix;
    if |chunk| == capacity {
      var more := BufferWriter(f.rest, prefix, capacity, false);
      BufferWriterTail(f.rest, prefix, capacity, k);
      assert r.chunks == [chunk] + more.chunks;
      FlattenCons(chunk, more.chunks);
      ChunkedCons(chunk, more.chunks, capacity);
      ConcatAssoc(prefix, f.got, f.rest.data);
    } else {
      assert r.chunks == [chunk] + [];
      FlattenCons(chunk, []);
    }
  }

  /** On a schedule where every file read delivers something and the file
      ends, the ByteBuffer sender writes exactly one frame, the size prefix
      followed by the file: `length + 4` bytes in all (the test's final
      assertion), in `(length + 4) / capacity + 1` writes. */
  lemma SendBufferedFrame(src: Stream, capacity: nat, k: nat)
    requires capacity >= MIN_CAPACITY && SizeFits(src) && k >= 1
    requires Progressing(src, k) && Ample(src)
    ensures var r := SendBuffered(src, capacity);
      && r.Sent?
      && Flatten(r.chunks) == Encode(|src.data|) + src.data
      && Chunked(r.chunks, capacity)
      && |Flatten(r.chunks)| == |src.data| + PREFIX_SIZE
      && |r.chunks| == (|src.data| + PREFIX_SIZE) / capacity + 1
      && r.chunks[0][..PREFIX_SIZE] == Encode(|src.data|)
  {
    var prefix := Encode(|src.data|);
    BufferWriterFrame(src, prefix, capacity, k);
    ChunkCount(BufferWriter(src, prefix, capacity, true).chunks, capacity);
  }

  /** Past the first chunk both byte-array framers behave like the
      ByteBuffer framer past its first chunk, on every schedule. */
  lemma {:induction false} ArrayTailAgrees(src: Stream, prefix: seq<Byte>, capacity: nat, variant: Variant)
    requires capacity >= MIN_CAPACITY && |prefix| == PREFIX_SIZE
    ensures ArrayWriter(src, 0, prefix, capacity, false, variant) == BufferWriter(src, prefix, capacity, false)
    decreases |src.grants|
  {
    var f := Fill(src, capacity);
    if f.Stuck? {
      TailsStuck(src, prefix, capacity, variant);
    } else if |f.got| == capacity {
      ArrayTailAgrees(f.rest, prefix, capacity, variant);
      TailsAgreeFull(src, prefix, capacity, variant, f.got, f.rest);
    } else {
      TailsAgreeLast(src, prefix, capacity, variant);
    }
  }

  /** The two framers past their first chunk agree on a stream when they
      agree on what is left after a full chunk ... */
  lemma TailsAgreeFull(src: Stream, prefix: seq<Byte>, capacity: nat, variant: Variant,
                       got: seq<Byte>, rest: Stream)
    requires capacity >= MIN_CAPACITY && |prefix| == PREFIX_SIZE
    requires Fill(src, capacity) == Filled(got, rest) && |got| == capacity
    requires ArrayWriter(rest, 0, prefix, capacity, false, variant) == BufferWriter(rest, prefix, capacity, false)
    ensures ArrayWriter(src, 0, prefix, capacity, false, variant) == BufferWriter(src, prefix, capacity, false)
  {
    ArrayTailStep(src, prefix, capacity, variant);
    BufferWriterStep(src, prefix, capacity);
    assert ArrayWriter(src, 0, prefix, capacity, false, variant) == Precede(got, ArrayWriter(rest, 0, prefix, capacity, false, variant));
    assert BufferWriter(src, prefix, capacity, false) == Precede(got, BufferWriter(rest, prefix, capacity, false));
  }

  /** ... when their first fill is partial ... */
  lemma TailsAgreeLast(src: Stream, prefix: seq<Byte>, capacity: nat, variant: Variant)
    requires capacity >= MIN_CAPACITY && |prefix| == PREFIX_SIZE
    requires Fill(src, capacity).Filled? && |Fill(src, capacity).got| < capacity
    ensures ArrayWriter(src, 0, prefix, capacity, false, variant) == BufferWriter(src, prefix, capacity, false)
  {
    ArrayTailStep(src, prefix, capacity, variant);
    BufferWriterStep(src, prefix, capacity);
  }

  /** ... and when that fill never returns. */
  lemma TailsStuck(src: Stream, prefix: seq<Byte>, capacity: nat, variant: Variant)
    requires capacity >= MIN_CAPACITY && |prefix| == PREFIX_SIZE
    requires Fill(src, capacity).Stuck?
    ensures ArrayWriter(src, 0, prefix, capacity, false, variant) == SendStuck([])
    ensures BufferWriter(src, prefix, capacity, false) == SendStuck([])
  {
  }

  /** One chunk of a byte-array framer once the prefix question is settled. */
  lemma ArrayTailStep(src: Stream, prefix: seq<Byte>, capacity: nat, variant: Variant)
    requires capacity >= MIN_CAPACITY && |prefix| == PREFIX_SIZE && Fill(src, capacity).Filled?
    ensures var f := Fill(src, capacity);
      ArrayWriter(src, 0, prefix, capacity, false, variant)
        == if |f.got| == capacity then Precede(f.got, ArrayWriter(f.rest, 0, prefix, capacity, false, variant))
           else Sent([f.got])
  {
    var f := Fill(src, capacity);
    var none: seq<Byte> := [];
    assert none + f.got == f.got;
    assert (if variant.AsWritten? then 0 != 0 else false) == false;
  }

  /** The byte-array framers and the ByteBuffer framer issue the same writes
      on every schedule, whenever the byte-array framer puts the prefix in
      its first chunk: always once corrected, for a non-empty file as
      written. */
  lemma SendersAgree(src: Stream, capacity: nat, variant: Variant)
    requires capacity >= MIN_CAPACITY && SizeFits(src)
    requires variant.Corrected? || |src.data| != 0
    ensures SendArray(src, capacity, variant) == SendBuffered(src, capacity)
  {
    ArrayFirstAgrees(src, |src.data|, Encode(|src.data|), capacity, variant);
  }

  lemma ArrayFirstAgrees(src: Stream, length: Int32, prefix: seq<Byte>, capacity: nat, variant: Variant)
    requires capacity >= MIN_CAPACITY && |prefix| == PREFIX_SIZE
    requires variant.Corrected? || length != 0
    ensures ArrayWriter(src, length, prefix, capacity, true, variant) == BufferWriter(src, prefix, capacity, true)
  {
    var f := Fill(src, capacity - PREFIX_SIZE);
    ArrayFirstStep(src, length, prefix, capacity, variant);
    BufferFirstStep(src, prefix, capacity);
    if f.Filled? && |f.got| == capacity - PREFIX_SIZE {
      ArrayTailAgrees(f.rest, prefix, capacity, variant);
    }
  }

  /** The first chunk of a byte-array framer that puts the prefix in it. */
  lemma ArrayFirstStep(src: Stream, length: Int32, prefix: seq<Byte>, capacity: nat, variant: Variant)
    requires capacity >= MIN_CAPACITY && |prefix| == PREFIX_SIZE
    requires variant.Corrected? || length != 0
    ensures var f := Fill(src, capacity - PREFIX_SIZE);
      ArrayWriter(src, length, prefix, capacity, true, variant)
        == if f.Stuck? then SendStuck([])
           else if |f.got| == capacity - PREFIX_SIZE
           then Precede(prefix + f.got, ArrayWriter(f.rest, 0, prefix, capacity, false, variant))
           else Sent([prefix + f.got])
  {
  }

  /** The first chunk of the ByteBuffer framer. */
  lemma BufferFirstStep(src: Stream, prefix: seq<Byte>, capacity: nat)
    requires capacity >= MIN_CAPACITY && |prefix| == PREFIX_SIZE
    ensures var f := Fill(src, capacity - PREFIX_SIZE);
      BufferWriter(src, prefix, capacity, true)
        == if f.Stuck? then SendStuck([])
           else if |f.got| == capacity - PREFIX_SIZE
           then Precede(prefix + f.got, BufferWriter(f.rest, prefix, capacity, false))
           else Sent([prefix + f.got])
  {
  }

  /** The first write of the byte-array sender, whenever it carries the
      prefix, on a schedule where every file read delivers something:
      `b[0, b.length - length)` is the size prefix followed by the first
      `b.length - 4` bytes of the file, or by the whole file when it is
      shorter. */
  lemma ArrayFirstWrite(src: Stream, capacity: nat, variant: Variant, k: nat)
    requires capacity >= MIN_CAPACITY && SizeFits(src) && k >= 1
    requires Progressing(src, k) && Ample(src)
    requires variant.Corrected? || |src.data| != 0
    ensures SendArray(src, capacity, variant).Sent?
    ensures SendArray(src, capacity, variant).chunks[0]
      == Encode(|src.data|) + src.data[..Min(capacity - PREFIX_SIZE, |src.data|)]
  {
    var prefix := Encode(|src.data|);
    var space := capacity - PREFIX_SIZE;
    ArraySendCompletes(src, capacity, variant, k);
    FirstFill(src, space, k);
    ArrayFirstChunk(src, |src.data|, prefix, capacity, variant);
    assert SendArray(src, capacity, variant) == ArrayWriter(src, |src.data|, prefix, capacity, true, variant);
  }

  /** On such a schedule the byte-array sender completes whenever it stores
      the prefix. */
  lemma ArraySendCompletes(src: Stream, capacity: nat, variant: Variant, k: nat)
    requires capacity >= MIN_CAPACITY && SizeFits(src) && k >= 1
    requires Progressing(src, k) && Ample(src)
    requires variant.Corrected? || |src.data| != 0
    ensures SendArray(src, capacity, variant).Sent?
  {
    SendersAgree(src, capacity, variant);
    BufferWriterFrame(src, Encode(|src.data|), capacity, k);
  }

  /** A first fill on a progressing schedule is the head of the file. */
  lemma FirstFill(src: Stream, space: nat, k: nat)
    requires k >= 1 && Progressing(src, k) && Ample(src)
    ensures Fill(src, space).Filled? && Fill(src, space).got == src.data[..Min(space, |src.data|)]
  {
    FillCompletes(src, space, k);
    FillInOrder(src, space);
  }

  /** The first chunk of a byte-array framer that stores the prefix is the
      prefix followed by its first fill. */
  lemma ArrayFirstChunk(src: Stream, length: Int32, prefix: seq<Byte>, capacity: nat, variant: Variant)
    requires capacity >= MIN_CAPACITY && |prefix| == PREFIX_SIZE
    requires variant.Corrected? || length != 0
    requires Fill(src, capacity - PREFIX_SIZE).Filled?
    ensures |ArrayWriter(src, length, prefix, capacity, true, variant).chunks| > 0
    ensures ArrayWriter(src, length, prefix, capacity, true, variant).chunks[0] == prefix + Fill(src, capacity - PREFIX_SIZE).got
  {
    ArrayFirstStep(src, length, prefix, capacity, variant);
  }

  /** As written, the byte-array framer sends an empty file as if its
      prefix had already gone out: the ByteBuffer framer past its first
      chunk. */
  lemma EmptyFileAsTail(src: Stream, capacity: nat)
    requires capacity >= MIN_CAPACITY && src.data == []
    ensures SendArray(src, capacity, AsWritten) == BufferWriter(src, Encode(0), capacity, false)
  {
    ArrayTailAgrees(src, Encode(0), capacity, AsWritten);
  }

  /** An empty file: once its only read reports the end of the file, the
      corrected byte-array framer writes the four zero bytes of the size
      prefix, and the framer as written writes nothing at all. */
  lemma EmptyFileUnframed(src: Stream, capacity: nat)
    requires capacity >= MIN_CAPACITY && src.data == [] && |src.grants| > 0
    ensures SendArray(src, capacity, Corrected) == Sent([[0, 0, 0, 0]])
    ensures SendArray(src, capacity, AsWritten) == Sent([[]])
  {
    assert Encode(0) == [0, 0, 0, 0];
    assert Read(src, capacity - PREFIX_SIZE) == Answered(-1, [], Stream([], src.grants[1..]));
    assert Read(src, capacity) == Answered(-1, [], Stream([], src.grants[1..]));
    assert Fill(src, capacity - PREFIX_SIZE) == Filled([], Stream([], src.grants[1..]));
    assert Fill(src, capacity) == Filled([], Stream([], src.grants[1..]));
    assert [0, 0, 0, 0] + [] == [0, 0, 0, 0];
    var none: seq<Byte> := [];
    assert none + none == none;
  }
}

=== FILE: length_prefix.dfy ===
/** The 4-byte little-endian length prefix that opens every frame.

    The senders write the low 8 bits of `length`, `length >> 8`,
    `length >> 16` and `length >> 24`.  Both receivers read it back as
    `b0 | b1 << 8 | b2 << 16 | b3 << 32` on a Java `int`; Java masks an
    `int` shift distance to its low five bits (section 15.19 of the Java
    Language Specification), so the last term is `b3 << 0` and the top
    byte is OR-ed into bits 0-7.  `Decode` is that expression as written;
    `Decode24` is the evidently intended one with `<< 24`. */
module LengthPrefix {
  import opened Bytes

  const PREFIX_SIZE: nat := 4

  /** The four prefix bytes the senders write for a source of `length`
      bytes: `(byte) length`, `(byte) (length >> 8)`, `(byte) (length >> 16)`
      and `(byte) (length >> 24)`, each read back with `& 255`.  Java's `>>`
      on an int is an arithmetic shift, i.e. floor division by a power of
      two, and so are Dafny's `/` and `%` by a positive divisor. */
  function Encode(length: Int32): (p: seq<Byte>)
    ensures |p| == PREFIX_SIZE
    ensures Value(p) == length % TWO_32
  {
    var p := [length % 0x100, (length / 0x100) % 0x100, (length / 0x1_0000) % 0x100, (length / 0x100_0000) % 0x100];
    Digits(length, p);
    p
  }

  /** The unsigned little-endian value of four bytes. */
  function Value(p: seq<Byte>): int
    requires |p| == PREFIX_SIZE
  {
    p[0] as int + 0x100 * (p[1] as int) + 0x1_0000 * (p[2] as int) + 0x100_0000 * (p[3] as int)
  }

  /** The four shifted-and-truncated bytes are the base-256 digits of
      `length` modulo 2^32, least significant first. */
  lemma Digits(length: Int32, p: seq<Byte>)
    requires p == [length % 0x100, (length / 0x100) % 0x100, (length / 0x1_0000) % 0x100, (length / 0x100_0000) % 0x100]
    ensures Value(p) == length % TWO_32
  {
    var q1 := length / 0x100;
    var q2 := q1 / 0x100;
    var q3 := q2 / 0x100;
    var r0, r1, r2, r3 := length % 0x100, q1 % 0x100, q2 % 0x100, q3 % 0x100;
    assert length == 0x1_0000 * q2 + (r0 + 0x100 * r1);
    assert length / 0x1_0000 == q2;
    assert length == 0x100_0000 * q3 + (r0 + 0x100 * r1 + 0x1_0000 * r2);
    assert length / 0x100_0000 == q3;
    assert p == [r0, r1, r2, r3];
    assert length == TWO_32 * (q3 / 0x100) + Value(p);
  }

  /** A 32-bit Java int as four little-endian byte lanes.  Bitwise OR acts on
      each lane independently and a shift by a multiple of 8 moves whole
      lanes, so this is an exact representation for the decode expression. */
  datatype Word = Word(b0: Byte, b1: Byte, b2: Byte, b3: Byte)

  /** `(b & 255)` widened to an int. */
  function Widen(b: Byte): Word
  {
    Word(b, 0, 0, 0)
  }

  /** Java's `w << d` for a shift distance that is a multiple of 8: the
      distance is first masked to its low five bits, so 32 acts as 0. */
  function Shl(w: Word, d: nat): Word
    requires d % 8 == 0
  {
    var lanes := (d % 32) / 8;
    if lanes == 0 then w
    else if lanes == 1 then Word(0, w.b0, w.b1, w.b2)
    else if lanes == 2 then Word(0, 0, w.b0, w.b1)
    else Word(0, 0, 0, w.b0)
  }

  /** Java's `a | b` on ints. */
  function Or(a: Word, b: Word): Word
  {
    Word(ByteOr(a.b0, b.b0), ByteOr(a.b1, b.b1), ByteOr(a.b2, b.b2), ByteOr(a.b3, b.b3))
  }

  /** The unsigned value of a word's bit pattern. */
  function Unsigned(w: Word): int
  {
    w.b0 as int + 0x100 * (w.b1 as int) + 0x1_0000 * (w.b2 as int) + 0x100_0000 * (w.b3 as int)
  }

  /** The bit pattern of a word read as a signed Java int. */
  function AsInt32(w: Word): Int32
  {
    if Unsigned(w) < TWO_31 then Unsigned(w) else Unsigned(w) - TWO_32
  }

  /** Reading a bit pattern as signed loses nothing modulo 2^32. */
  lemma AsInt32Mod(w: Word)
    ensures AsInt32(w) % TWO_32 == Unsigned(w)
  {
    Int32Mod(AsInt32(w));
  }

  /** The receivers' prefix decode, exactly as written:
      `(b0 & 255) | (b1 & 255) << 8 | (b2 & 255) << 16 | (b3 & 255) << 32`.
      The top byte lands in bits 0-7, so the result is never negative and
      never reaches 2^24. */
  function Decode(p: seq<Byte>): (length: Int32)
    requires |p| == PREFIX_SIZE
    ensures 0 <= length < TWO_24
    ensures length == ByteOr(p[0], p[3]) as int + 0x100 * (p[1] as int) + 0x1_0000 * (p[2] as int)
  {
    assert Or(Or(Or(Widen(p[0]), Shl(Widen(p[1]), 8)), Shl(Widen(p[2]), 16)), Shl(Widen(p[3]), 32))
        == Word(ByteOr(p[0], p[3]), p[1], p[2], 0);
    AsInt32(Or(Or(Or(Widen(p[0]), Shl(Widen(p[1]), 8)), Shl(Widen(p[2]), 16)), Shl(Widen(p[3]), 32)))
  }

  /** The decode the receivers evidently intend: `... | (b3 & 255) << 24`.
      Its bit pattern is the little-endian value of the four bytes. */
  function Decode24(p: seq<Byte>): (length: Int32)
    requires |p| == PREFIX_SIZE
    ensures length % TWO_32 == Value(p)
  {
    assert Or(Or(Or(Widen(p[0]), Shl(Widen(p[1]), 8)), Shl(Widen(p[2]), 16)), Shl(Widen(p[3]), 24))
        == Word(p[0], p[1], p[2], p[3]);
    AsInt32Mod(Word(p[0], p[1], p[2], p[3]));
    AsInt32(Or(Or(Or(Widen(p[0]), Shl(Widen(p[1]), 8)), Shl(Widen(p[2]), 16)), Shl(Widen(p[3]), 24)))
  }

  /** A Java int modulo 2^32 is its unsigned bit pattern. */
  lemma Int32Mod(x: Int32)
    ensures x % TWO_32 == if x >= 0 then x else x + TWO_32
  {
  }

  /** Division by 256 recovers quotient and remainder. */
  lemma Digit(v: int, q: int, r: int)
    requires v == 0x100 * q + r && 0 <= r < 0x100
    ensures v / 0x100 == q && v % 0x100 == r
  {
  }

  /** The bytes of a prefix are the base-256 digits of its value. */
  lemma ValueDigits(p: seq<Byte>)
    requires |p| == PREFIX_SIZE
    ensures p[0] == Value(p) % 0x100
    ensures p[1] == (Value(p) / 0x100) % 0x100
    ensures p[2] == (Value(p) / 0x1_0000) % 0x100
    ensures p[3] == Value(p) / 0x100_0000
  {
    var v := Value(p);
    var t2 := p[2] as int + 0x100 * (p[3] as int);
    var t1 := p[1] as int + 0x100 * t2;
    assert v == 0x100 * t1 + p[0];
    Digit(v, t1, p[0]);
    Digit(t1, t2, p[1]);
    Digit(t2, p[3], p[2]);
    assert v / 0x1_0000 == (v / 0x100) / 0x100;
    assert v / 0x100_0000 == ((v / 0x100) / 0x100) / 0x100;
  }

  lemma ValueInjective(p: seq<Byte>, q: seq<Byte>)
    requires |p| == PREFIX_SIZE && |q| == PREFIX_SIZE
    requires Value(p) == Value(q)
    ensures p == q
  {
    ValueDigits(p);
    ValueDigits(q);
  }

  /** The as-written decode undoes the encoding exactly for lengths in
      [0, 2^24), and for no other Java int. */
  lemma RoundTripIff(length: Int32)
    ensures Decode(Encode(length)) == length <==> 0 <= length < TWO_24
  {
    var p := Encode(length);
    if 0 <= length < TWO_24 {
      Int32Mod(length);
      assert Value(p) == length;
      ValueDigits(p);
      assert p[3] == 0;
      assert ByteOr(p[0], p[3]) == p[0];
    }
  }

  /** For a length of 2^24 or more the top byte is folded into bits 0-7:
      a 16 MiB frame is read back as a 1-byte frame. */
  lemma TopByteFolded()
    ensures Encode(TWO_24) == [0, 0, 0, 1]
    ensures Decode(Encode(TWO_24)) == 1
  {
    assert Encode(TWO_24) == [0, 0, 0, 1];
    assert ByteOr(0, 1) == 1;
  }

  /** The intended decode undoes the encoding for every Java int ... */
  lemma RoundTrip24(length: Int32)
    ensures Decode24(Encode(length)) == length
  {
    var d := Decode24(Encode(length));
    Int32Mod(length);
    Int32Mod(d);
  }

  /** ... and the encoding undoes it for every 4-byte prefix. */
  lemma EncodeDecode24(p: seq<Byte>)
    requires |p| == PREFIX_SIZE
    ensures Encode(Decode24(p)) == p
  {
    var d := Decode24(p);
    Int32Mod(d);
    ValueInjective(Encode(d), p);
  }

  /** Which prefix decode a receiver applies: the one in the source, or
      the corrected one. */
  datatype Decoding = Shift32 | Shift24

  function DecodeWith(decoding: Decoding, p: seq<Byte>): (length: Int32)
    requires |p| == PREFIX_SIZE
    ensures decoding.Shift32? ==> 0 <= length < TWO_24
  {
    match decoding
    case Shift32 => Decode(p)
    case Shift24 => Decode24(p)
  }

  /** The lengths each decoding reads back faithfully from a sender's prefix. */
  predicate Faithful(decoding: Decoding, length: Int32)
  {
    match decoding
    case Shift32 => 0 <= length < TWO_24
    case Shift24 => true
  }

  lemma DecodeWithEncode(decoding: Decoding, length: Int32)
    ensures DecodeWith(decoding, Encode(length)) == length <==> Faithful(decoding, length)
  {
    match decoding
    case Shift32 => RoundTripIff(length);
    case Shift24 => RoundTrip24(length);
  }
}

=== FILE: socket_server.dfy ===
/** The stream receiver (`ServerSocketMain`): per connection, `read(b4)`
    must return 4; the decoded length is then either skipped
    (`skipNBytes`, no output file configured) or read chunk by chunk into
    arrays from the configured strategy and written to a file that is
    reopened, truncated, for every frame. */
module SocketServer {
  import opened Bytes
  import opened LengthPrefix
  import opened Transport
  import opened Buffers
  import opened FrameReader

  /** One chunk of the persist loop: ask for the smaller of the array's
      length and what is left of the frame, then read into the array at a
      growing offset until nothing is left to ask for or a read returns no
      bytes.  On return `pos` counts the bytes read, `pos + remaining` is
      the request, and `b[0, pos)` holds exactly those bytes. */
  method ReadChunk(b: seq<Byte>, s: Stream, request: nat)
    returns (filled: seq<Byte>, pos: nat, remaining: nat, rest: Stream, stuck: bool)
    requires request <= |b|
    ensures stuck <==> Fill(s, request).Stuck?
    ensures !stuck ==>
      && pos + remaining == request
      && |filled| == |b|
      && filled[..pos] == Fill(s, request).got
      && rest == Fill(s, request).rest
  {
    filled, pos, remaining, rest, stuck := b, 0, request, s, false;
    var reading := true;
    ghost var total := Fill(s, request);
    ExtendNone(total);
    while reading && remaining > 0
      invariant pos + remaining == request && |filled| == |b|
      invariant reading ==> total == Extend(filled[..pos], Fill(rest, remaining))
      invariant !reading ==> total == Filled(filled[..pos], rest)
      decreases |rest.grants|
    {
      match Read(rest, remaining)
      case Blocked =>
        FillHalts(total, filled[..pos], rest, remaining);
        stuck := true;
        return;
      case Answered(read, got, rest') =>
        if read <= 0 {
          FillStops(total, filled[..pos], rest, remaining, read, got, rest');
          reading := false;
        } else {
          ghost var space := remaining;
          var before := filled;
          filled := filled[..pos] + got + filled[pos + read..];
          assert filled[..pos + read] == before[..pos] + got;
          remaining := remaining - read;
          FillAdvance(total, before[..pos], rest, space, read, got, rest', remaining);
          pos := pos + read;
        }
        rest := rest';
    }
    if reading {
      FillFull(total, filled[..pos], rest);
    }
  }

  /** The persist branch for one frame: while `length > 0`, take an array,
      read a chunk into it, `out.write(b, 0, pos)`, `length -= pos`.  The
      file receives exactly the chunks of `Drain`, whatever a shared array
      held before. */
  method PersistFrame(src: Stream, length: Int32, strategy: Strategy, shared: seq<Byte>)
    returns (completed: bool, rest: Stream, written: seq<seq<Byte>>, shared': seq<Byte>)
    requires strategy.capacity > 0 && |shared| == strategy.capacity
    ensures completed <==> Drain(src, length, strategy.capacity).Drained?
    ensures completed ==> rest == Drain(src, length, strategy.capacity).rest
    ensures written == Drain(src, length, strategy.capacity).chunks
    ensures |shared'| == strategy.capacity
  {
    var len: int := length;
    rest, written, shared' := src, [], shared;
    ghost var total := Drain(src, length, strategy.capacity);
    PrependNone(total);
    while len > 0
      invariant |shared'| == strategy.capacity
      invariant total == Prepend(written, Drain(rest, len, strategy.capacity))
      decreases |rest.grants|
    {
      var b := AcquireArray(strategy, shared');
      var filled, pos, remaining, after, stuck := ReadChunk(b, rest, Min(|b|, len));
      if stuck {
        DrainHalt(total, written, rest, len, strategy.capacity);
        completed := false;
        return;
      }
      var chunk := filled[..pos];
      ghost var before, len0, written0 := rest, len, written;
      written := written + [chunk];
      len := len - pos;
      rest := after;
      DrainAdvance(total, written0, before, len0, strategy.capacity, chunk, rest, written, len);
      if strategy.sharing.Shared? {
        shared' := filled;
      }
    }
    DrainDone(total, written, rest, len, strategy.capacity);
    completed := true;
  }

  /** `InputStream.skipNBytes(n)`: nothing for `n <= 0`; otherwise the
      bytes are consumed read by read until `n` of them are gone.  A read at
      end of stream ends the skip with an `EOFException`; a read that never
      returns leaves the receiver blocked inside the frame. */
  datatype SkipResult = Skipped(rest: Stream) | EndOfStream | SkipBlocked

  function SkipNBytes(s: Stream, n: int): (r: SkipResult)
    ensures r.Skipped? ==> n <= |s.data| && |r.rest.grants| <= |s.grants|
    ensures r.EndOfStream? ==> |s.data| < n
    decreases |s.grants|
  {
    if n <= 0 then Skipped(s)
    else match Read(s, n)
      case Blocked => SkipBlocked
      case Answered(count, got, rest) =>
        if count < 0 then EndOfStream
        else SkipNBytes(rest, n - count)
  }

  /** A skip that returns has passed over exactly the next `n` bytes. */
  lemma {:induction false} SkipInOrder(s: Stream, n: int)
    requires SkipNBytes(s, n).Skipped?
    ensures s.data == s.data[..Max0(n)] + SkipNBytes(s, n).rest.data
    decreases |s.grants|
  {
    if n > 0 {
      var r := Read(s, n);
      ReadInOrder(s, n);
      var left := n - r.count;
      SkipInOrder(r.rest, left);
      SkipRead(s, n, r.got, r.rest, left, SkipNBytes(r.rest, left).rest.data);
    }
  }

  /** One read of a skip: the bytes it delivers and the bytes skipped after
      it are the first `n` bytes of the stream. */
  lemma SkipRead(s: Stream, n: int, got: seq<Byte>, rest: Stream, left: int, after: seq<Byte>)
    requires n > 0 && s.data == got + rest.data && left == n - |got| && 0 <= left
    requires left <= |rest.data| && rest.data == rest.data[..left] + after
    ensures n <= |s.data| && s.data == s.data[..n] + after
  {
    assert s.data[..n] == got + rest.data[..left];
    ConcatAssoc(got, rest.data[..left], after);
  }

  /** On a schedule whose reads each deliver at least one byte, a skip
      returns exactly when the stream holds `n` bytes, ends with an
      `EOFException` otherwise, and never blocks; the schedule stays as it
      was. */
  lemma {:induction false} SkipCompletes(s: Stream, n: int, k: nat)
    requires k >= 1 && Progressing(s, k) && Ample(s)
    ensures SkipNBytes(s, n).Skipped? <==> n <= |s.data|
    ensures SkipNBytes(s, n).EndOfStream? <==> |s.data| < n
    ensures SkipNBytes(s, n).Skipped? ==> Progressing(SkipNBytes(s, n).rest, k) && Ample(SkipNBytes(s, n).rest)
    decreases |s.grants|
  {
    if n > 0 {
      var r := Read(s, n);
      ProgressingTail(s, k, r.rest);
      ReadInOrder(s, n);
      if r.count >= 0 {
        var left := n - r.count;
        SkipCompletes(r.rest, left, k);
      }
    }
  }

  /** Where payloads go: skipped when no output file is configured, or read
      into arrays from a supplier.  Without a strategy argument the supplier
      is `null`. */
  datatype Supplier = NoSupplier | Supplier(strategy: Strategy)
  datatype Mode = Discard | Persist(supplier: Supplier)

  predicate ValidMode(mode: Mode)
  {
    mode.Persist? && mode.supplier.Supplier? ==> mode.supplier.strategy.capacity > 0
  }

  /** What one frame's payload branch did: consumed the payload and left the
      stream after it, or ended the connection inside the frame. */
  datatype Outcome = Consumed(payload: seq<Byte>, rest: Stream) | Broke(ending: Ending)

  /** The payload branch for one decoded `length`: `skipNBytes`, or the
      persist loop, which dereferences the supplier as soon as `length > 0`. */
  function Consume(rest: Stream, length: Int32, mode: Mode): (o: Outcome)
    requires ValidMode(mode)
    ensures o.Consumed? ==> |o.rest.grants| <= |rest.grants|
    ensures o.Broke? ==> o.ending in {Aborted, Crashed, HangsInFrame}
    ensures o.Broke? && o.ending == Aborted ==> mode.Discard? && |rest.data| < length
    ensures o.Broke? ==> (o.ending == Crashed <==> mode == Persist(NoSupplier))
    ensures o.Broke? && mode.Persist? && mode.supplier.Supplier? ==> o.ending == HangsInFrame
    ensures mode == Persist(NoSupplier) ==> (o.Broke? <==> length > 0)
  {
    match mode
    case Discard =>
      (match SkipNBytes(rest, length)
       case EndOfStream => Broke(Aborted)
       case SkipBlocked => Broke(HangsInFrame)
       case Skipped(rest') => Consumed(rest.data[..Max0(length)], rest'))
    case Persist(NoSupplier) =>
      if length > 0 then Broke(Crashed) else Consumed([], rest)
    case Persist(Supplier(strategy)) =>
      match Drain(rest, length, strategy.capacity)
      case DrainStuck(_) => Broke(HangsInFrame)
      case Drained(chunks, rest') => Consumed(Flatten(chunks), rest')
  }

  /** The whole of one connection.  `frames` are the payloads consumed for
      the completed frames, in order; when persisting, each is what the
      output file holds after that frame.  Only skipping ends in an
      `EOFException`, and only persisting without a supplier dereferences
      `null`. */
  function Serve(s: Stream, variant: Variant, mode: Mode): (c: Connection)
    requires ValidMode(mode)
    ensures c.ending == Aborted ==> mode.Discard?
    ensures c.ending == Crashed ==> mode == Persist(NoSupplier)
    decreases |s.grants|
  {
    match ReadPrefix(s, variant)
    case PrefixBlocked => Connection(Hangs, 0, [])
    case NoPrefix => Connection(Closed, 0, [])
    case Prefix(length, rest) =>
      match Consume(rest, length, mode)
      case Broke(ending) => Connection(ending, 1, [])
      case Consumed(payload, rest') => After([payload], Serve(rest', variant, mode))
  }

  /** `count` is the number of completed frames, plus the one being read
      when the connection broke inside a frame. */
  lemma {:induction false} ServeCounts(s: Stream, variant: Variant, mode: Mode)
    requires ValidMode(mode)
    ensures Serve(s, variant, mode).count
      == |Serve(s, variant, mode).frames| + (if Serve(s, variant, mode).ending in {HangsInFrame, Aborted, Crashed} then 1 else 0)
    decreases |s.grants|
  {
    match ReadPrefix(s, variant)
    case PrefixBlocked =>
    case NoPrefix =>
    case Prefix(length, rest) =>
      match Consume(rest, length, mode)
      case Broke(_) =>
      case Consumed(_, rest') => ServeCounts(rest', variant, mode);
  }

  /** `Serve` one frame at a time: a payload consumed, after which the loop
      starts over. */
  lemma ServeConsumed(s: Stream, variant: Variant, mode: Mode, length: Int32, rest: Stream,
                      payload: seq<Byte>, rest': Stream)
    requires ValidMode(mode) && ReadPrefix(s, variant) == Prefix(length, rest)
    requires Consume(rest, length, mode) == Consumed(payload, rest')
    ensures Serve(s, variant, mode) == After([payload], Serve(rest', variant, mode))
  {
  }
}

=== FILE: transport.dfy ===
/** The byte stream a receiver or sender reads from.

    A stream is the whole future of its bytes together with a schedule of
    read sizes: the k-th read call that is answered delivers at most
    `grants[k]` bytes.  Once the schedule is used up no further read call
    returns (the peer is connected but silent), which is how a blocking
    read that never completes is represented.  A read at end of stream
    returns -1. */
module Transport {
  import opened Bytes

  datatype Stream = Stream(data: seq<Byte>, grants: seq<nat>)

  /** The reply to one read call: it never returns, or it returns `count`
      and delivers `got`. */
  datatype Reply = Blocked | Answered(count: int, got: seq<Byte>, rest: Stream)

  /** One read call asking for up to `want` bytes
      (`SocketChannel.read(ByteBuffer)`, `InputStream.read(byte[], int, int)`). */
  function Read(s: Stream, want: nat): (r: Reply)
    ensures r.Blocked? <==> |s.grants| == 0
    ensures r.Answered? ==> r.rest.grants == s.grants[1..]
    ensures r.Answered? ==> |r.got| <= want
    ensures r.Answered? ==> (r.count == -1 <==> want > 0 && |s.data| == 0)
    ensures r.Answered? && r.count != -1 ==> r.count == |r.got|
    ensures r.Answered? && want > 0 && |s.data| > 0 && s.grants[0] > 0 ==> r.count > 0
  {
    if |s.grants| == 0 then Blocked
    else if want == 0 then Answered(0, [], Stream(s.data, s.grants[1..]))
    else if |s.data| == 0 then Answered(-1, [], Stream(s.data, s.grants[1..]))
    else
      var n := Min(want, Min(|s.data|, s.grants[0]));
      Answered(n, s.data[..n], Stream(s.data[n..], s.grants[1..]))
  }

  /** The outcome of filling a buffer region: the bytes that landed in it,
      or a read that never returned. */
  datatype FillResult = Filled(got: seq<Byte>, rest: Stream) | Stuck

  /** Read into a region of `space` bytes until it is full or a read returns
      a non-positive count: `while (buf.hasRemaining() && src.read(buf) > 0);`
      and its array-offset twins in the other loops. */
  function Fill(s: Stream, space: nat): (r: FillResult)
    ensures r.Filled? ==> |r.got| <= space
    ensures r.Filled? ==> |r.rest.grants| <= |s.grants|
    ensures r.Filled? && space > 0 ==> |r.rest.grants| < |s.grants|
    ensures space == 0 ==> r == Filled([], s)
    decreases |s.grants|
  {
    if space == 0 then Filled([], s)
    else match Read(s, space)
      case Blocked => Stuck
      case Answered(n, got, rest) =>
        if n <= 0 then Filled([], rest)
        else match Fill(rest, space - n)
          case Stuck => Stuck
          case Filled(more, rest') => Filled(got + more, rest')
  }

  /** A read delivers the next bytes of the stream and leaves the rest. */
  lemma ReadInOrder(s: Stream, want: nat)
    requires Read(s, want).Answered?
    ensures s.data == Read(s, want).got + Read(s, want).rest.data
  {
    if want > 0 && |s.data| > 0 {
      var n := Min(want, Min(|s.data|, s.grants[0]));
      assert s.data == s.data[..n] + s.data[n..];
    }
  }

  /** A fill delivers the next bytes of the stream and leaves the rest. */
  lemma {:induction false} FillInOrder(s: Stream, space: nat)
    requires Fill(s, space).Filled?
    ensures s.data == Fill(s, space).got + Fill(s, space).rest.data
    decreases |s.grants|
  {
    if space > 0 {
      var r := Read(s, space);
      ReadInOrder(s, space);
      if r.count > 0 {
        var left := space - r.count;
        var f := Fill(r.rest, left);
        FillInOrder(r.rest, left);
        ConcatAssoc(r.got, f.got, f.rest.data);
      }
    }
  }

  /** Put bytes already in the region in front of a fill's outcome. */
  function Extend(prefix: seq<Byte>, r: FillResult): FillResult
  {
    match r
    case Stuck => Stuck
    case Filled(got, rest) => Filled(prefix + got, rest)
  }

  lemma ExtendExtend(a: seq<Byte>, b: seq<Byte>, r: FillResult)
    ensures Extend(a, Extend(b, r)) == Extend(a + b, r)
  {
    if r.Filled? {
      ConcatAssoc(a, b, r.got);
    }
  }

  /** One read of the fill loop: a positive count continues the fill with
      what is left of the region, anything else ends it. */
  lemma FillStep(s: Stream, space: nat)
    requires space > 0
    ensures Read(s, space).Blocked? ==> Fill(s, space) == Stuck
    ensures Read(s, space).Answered? && Read(s, space).count <= 0 ==> Fill(s, space) == Filled([], Read(s, space).rest)
    ensures Read(s, space).Answered? && Read(s, space).count > 0 ==>
      Fill(s, space) == Extend(Read(s, space).got, Fill(Read(s, space).rest, space - Read(s, space).count))
  {
  }

  /** The fill loops' bookkeeping: with `got` already in the region and
      the fill of what is left still to come, a read that delivers bytes
      moves them from the one to the other ... */
  lemma FillAdvance(total: FillResult, got: seq<Byte>, s: Stream, space: nat,
                    n: int, bytes: seq<Byte>, rest: Stream, space': nat)
    requires space > 0 && total == Extend(got, Fill(s, space))
    requires Read(s, space) == Answered(n, bytes, rest) && n > 0 && space' == space - |bytes|
    ensures n == |bytes| && total == Extend(got + bytes, Fill(rest, space'))
  {
    FillRead(s, space, n, bytes, rest, space');
    ExtendExtend(got, bytes, Fill(rest, space'));
  }

  /** A read that delivers bytes puts them in front of the fill of what is
      left of the region. */
  lemma FillRead(s: Stream, space: nat, n: int, bytes: seq<Byte>, rest: Stream, left: nat)
    requires space > 0 && Read(s, space) == Answered(n, bytes, rest) && n > 0 && left == space - n
    ensures n == |bytes| && Fill(s, space) == Extend(bytes, Fill(rest, left))
  {
  }

  /** ... a read that returns a non-positive count ends the fill ... */
  lemma FillStops(total: FillResult, got: seq<Byte>, s: Stream, space: nat, n: int, bytes: seq<Byte>, rest: Stream)
    requires space > 0 && total == Extend(got, Fill(s, space))
    requires Read(s, space) == Answered(n, bytes, rest) && n <= 0
    ensures total == Filled(got, rest)
  {
    FillStep(s, space);
    assert got + [] == got;
  }

  /** ... a read that never returns leaves it stuck ... */
  lemma FillHalts(total: FillResult, got: seq<Byte>, s: Stream, space: nat)
    requires space > 0 && total == Extend(got, Fill(s, space))
    requires Read(s, space).Blocked?
    ensures total == Stuck
  {
    FillStep(s, space);
  }

  /** ... and a full region ends it without another read. */
  lemma FillFull(total: FillResult, got: seq<Byte>, s: Stream)
    requires total == Extend(got, Fill(s, 0))
    ensures total == Filled(got, s)
  {
    assert got + [] == got;
  }

  /** Nothing read yet. */
  lemma ExtendNone(r: FillResult)
    ensures Extend([], r) == r
  {
    if r.Filled? {
      assert [] + r.got == r.got;
    }
  }

  /** Every read in the schedule delivers at least `k` bytes when that many
      are asked for and available. */
  predicate Progressing(s: Stream, k: nat)
  {
    forall i :: 0 <= i < |s.grants| ==> s.grants[i] >= k
  }

  /** More answered reads remain than bytes: enough for every byte to arrive
      one at a time and for one final end-of-stream read. */
  predicate Ample(s: Stream)
  {
    |s.grants| > |s.data|
  }

  lemma ProgressingTail(s: Stream, k: nat, rest: Stream)
    requires Progressing(s, k)
    requires |rest.grants| <= |s.grants| && rest.grants == s.grants[|s.grants| - |rest.grants|..]
    ensures Progressing(rest, k)
  {
    forall i | 0 <= i < |rest.grants|
      ensures rest.grants[i] >= k
    {
      assert rest.grants[i] == s.grants[|s.grants| - |rest.grants| + i];
    }
  }

  /** On a progressing schedule a fill stops only when its region is full or
      the stream has ended, and it leaves the schedule progressing and, when
      the stream has not ended, ample. */
  lemma {:induction false} FillCompletes(s: Stream, space: nat, k: nat)
    requires k >= 1 && Progressing(s, k) && Ample(s)
    ensures Fill(s, space).Filled?
    ensures |Fill(s, space).got| == Min(space, |s.data|)
    ensures Progressing(Fill(s, space).rest, k)
    ensures space <= |s.data| ==> Ample(Fill(s, space).rest)
    decreases |s.grants|
  {
    if space > 0 {
      var r := Read(s, space);
      ProgressingTail(s, k, r.rest);
      if r.count > 0 {
        var left := space - r.count;
        FillCompletes(r.rest, left, k);
      }
    }
  }
}
